=== FILE: README.md ===
# claude-magic-ui core, modelled in Dafny

This project models the pipeline at the heart of claude-magic-ui, which turns a free-text request for a UI component into code. The pipeline has four parts:

- **Parser.** A keyword-based natural-language parser derives an intent from the text: the component kind, framework, styling system, feature tags, `key:value` constraints and a confidence score.
- **Component library.** A static catalog of five core components (button, input, card, modal, alert) with their variants, props and keywords, plus lookup, listing by category and text search.
- **Code generator.** It dispatches on the component's name, picks the first colour and size constraints and rewrites the matching tokens of a framework template.
- **Orchestrator.** It chains parse, lookup, variant selection, code and style generation, metadata and numbered integration instructions, and also offers a "quick generate" entry point.

Everything is modelled as pure functions over immutable datatypes, one module per source file:

- `Parser` (`parser.dfy`)
- `Library` (`library.dfy`)
- `CodeGen` (`codegen.dfy`)
- `Generator` (`generator.dfy`)

Shared helpers live in `Strings` (substring search, JavaScript `replace` with a string and with a global pattern, `toLowerCase`, `trim`), `Seqs` (filtering, subsequences, the insertion-ordered set behind `[...new Set(xs)]`), `Types` and `Wrappers` (`Option` for `null`/`undefined`, `Result` for an operation that throws an `Error`).

Where the code and its prose description disagree, the model follows the code:

- The install instruction names the packages of the requested framework (`frameworkDeps[request.framework]`, src/generators/component-generator.ts:100-106). It does not use the dependencies of the first variant.
- The test at tests/parser.test.ts:98-101 expects "create a blue button with hover effects" to score above 0.7. The code gives it one component keyword (`button`) and one feature (`hover`), that is 0.5 + 0.1 + 0.05 = 0.65. `Parser.OneKeywordOneFeature` proves that value for any such description.

## Model

| member | source | states |
|---|---|---|
| Parser.Normalize | src/generators/parser.ts:83 | the text every extractor reads has no upper-case letter, is no longer than the input, and neither starts nor ends with white space |
| Parser.NormalizeKeepsWord | src/generators/parser.ts:83 | trimming never changes whether a word without white space occurs: searching the normalized text is searching the lower-cased description |
| Strings.Count | src/generators/parser.ts:119 | `split(keyword).length - 1` is positive exactly when the keyword occurs |
| Strings.CountFirst | src/generators/parser.ts:119 | the leftmost occurrence counts once and counting resumes after it, so only non-overlapping occurrences count; with the case above this fixes every count |
| Strings.CountSingle | src/generators/parser.ts:119 | a keyword that occurs at exactly one position counts one |
| Strings.CountTwice | src/generators/parser.ts:119 | "dialog dialog" holds `dialog` twice |
| Parser.ScanKinds | src/generators/parser.ts:113-126 | after the keyword loop, the best count bounds every entry's occurrence count; a positive best is reached by an entry with no earlier entry as high, and that entry's first kind is kept; with no occurrence the kind stays `button` |
| Parser.ScanFindsFirstMaximum | src/generators/parser.ts:117-125 | when entry j is the first entry with the greatest positive count, the loop answers j's first kind, so ties go to the earlier table entry |
| Parser.ScanWinnerIsFirstMaximum | src/generators/parser.ts:117-125 | conversely, a winner with a positive count is always the first kind of a first-maximum entry |
| Parser.ExtractComponentType | src/generators/parser.ts:113-139 | "pricing" with "table" forces pricing-table, else "contact" with "form" forces contact-form, else "data" with "table" forces data-table, whatever the counts |
| Parser.ComponentTypeIsFirstMaximum | src/generators/parser.ts:113-139 | without an override the kind is the first kind of the first entry with the greatest count |
| Parser.ComponentTypeDefault | src/generators/parser.ts:114 | with no component keyword present the kind falls back to `button` |
| Parser.FirstFound | src/generators/parser.ts:141-157 | the index found is the first table entry, in table order, whose keyword occurs; none exactly when no keyword occurs |
| Parser.Lookup | src/generators/parser.ts:141-157 | framework and styling detection returns the value of the first entry found, and none exactly when no keyword of the table occurs |
| Parser.LookupFirst | src/generators/parser.ts:142-146 | whenever entry k occurs and no earlier entry does, entry k's value is the answer |
| Parser.ParseDefaults | src/generators/parser.ts:89-92 | with no framework or styling keyword in the text, the parse answers React and Tailwind |
| Parser.CollectFeatures | src/generators/parser.ts:162-166 | the pushed list holds exactly the tags contributed by an entry whose keyword occurs |
| Parser.Features | src/generators/parser.ts:159-170 | the feature list is duplicate free and holds a tag iff some occurring keyword contributes it |
| Parser.FeaturesInFirstContributionOrder | src/generators/parser.ts:169 | each tag sits where it was first contributed |
| Parser.LoadingStateOnce | src/generators/parser.ts:67-68 | "loading" or "spinner" yields `loading-state`, listed exactly once even when both occur |
| Parser.Tagged | src/generators/parser.ts:176-189 | each word of the list found in the text gives `category:word`, and every element is such a tag of a found word |
| Parser.Tags | src/generators/parser.ts:178-180 | the tag list has one `category:word` per word, position by position |
| Parser.TaggedInOrder | src/generators/parser.ts:176-189 | the tags are exactly the found words, filtered in list order, each tagged: `blue` before `red` whatever the text's order |
| Parser.Constraints | src/generators/parser.ts:172-198 | every colour, size and style word found appears as its tag, nothing else appears, and colours precede sizes precede styles |
| Parser.ConstraintsInOrder | src/generators/parser.ts:172-198 | the constraints are the found colours, then the found sizes, then the found style words, each group in list order |
| Parser.FirstColorLeads | src/generators/parser.ts:176-181 | the first constraint names the first colour of the list that occurs, so "a red and blue button" leads with `color:blue` |
| Parser.GroupsSorted | src/generators/parser.ts:172-197 | three groups laid end to end in emission order are sorted by group |
| Parser.SmallYieldsTwoSizes | src/generators/parser.ts:184-189 | because matching is by substring, "small" yields both `size:small` and `size:sm` |
| Parser.MatchedKeywords | src/generators/parser.ts:204-205 | the matched-keyword count is zero exactly when no component keyword occurs and never exceeds the table size |
| Parser.MatchedCount | src/generators/parser.ts:204-205 | the count equals the length of the keyword table filtered by occurrence in the text |
| Parser.MatchedAll | src/generators/parser.ts:204-205 | over the whole table, the count is the length of the filtered table |
| Parser.MatchedMonotone | src/generators/parser.ts:204-205 | a text containing every keyword another text contains matches at least as many |
| Parser.MatchedOne | src/generators/parser.ts:204-205 | when exactly one component keyword occurs, the count is one |
| Parser.CalculateConfidence | src/generators/parser.ts:200-222 | confidence lies in [0.5, 1] and is exactly 0.5 iff no component keyword and no feature was found, as for "create something" |
| Parser.ConfidenceFormula | src/generators/parser.ts:200-222 | confidence is one half plus a tenth per component keyword found, a twentieth per feature and the composite bonus, capped at one |
| Parser.ConfidenceMoreFeatures | src/generators/parser.ts:208-209 | more features never lower the confidence |
| Parser.ConfidenceMoreText | src/generators/parser.ts:203-221 | a text containing every word another contains scores at least as high, for the same kind and features |
| Parser.OneKeywordOneFeature | src/generators/parser.ts:200-222 | one component keyword, one feature and no composite bonus score exactly 0.65 |
| Parser.Parse | src/generators/parser.ts:82-111 | a parse never fails, its confidence lies in [0.5, 1], its features are duplicate free, and "pricing" with "table" yields pricing-table |
| Parser.ExtractVariantHint | src/generators/parser.ts:225-231 | the hint is that of the first rule (basic, advanced, minimal, complete) one of whose words occurs, and none when no rule fires |
| Parser.BasicHintFirst | src/generators/parser.ts:226 | "simple" or "basic" always gives `basic`, whatever else occurs |
| Parser.QuantityFrom | src/generators/parser.ts:234 | the search finds the leftmost position where digits, optional white space and a unit word match |
| Parser.MatchExtendsLeft | src/generators/parser.ts:234 | a match preceded by a digit also matches one position earlier |
| Parser.MatchExtendsToRunStart | src/generators/parser.ts:234-235 | a match inside a digit run also matches at the run's start, so the number read is always a whole digit run |
| Parser.Quantity | src/generators/parser.ts:233-236 | the quantity is absent exactly when the pattern matches nowhere |
| Parser.QuantityAtFirstDigit | src/generators/parser.ts:234-235 | a match with no digit before it is the leftmost, and the quantity is the digit run there |
| Parser.PricingTableThreeTiers | src/generators/parser.ts:233-236 | "create a pricing table with 3 tiers" yields the quantity 3, as tests/parser.test.ts:116-117 expects |
| Parser.DigitThenTier | src/generators/parser.ts:233-236 | a digit, a space and "tier" at the start of the text yield that digit as the quantity, so "3 tiers" yields 3 |
| Parser.ComparisonFrom | src/generators/parser.ts:239-244 | the search finds the leftmost position where a comparison phrase, white space and a letter follow |
| Parser.MatchPattern | src/generators/parser.ts:247-250 | a pattern captures iff it matches somewhere, and the capture is a non-empty run of letters |
| Parser.Capture | src/generators/parser.ts:240-243 | `([a-zA-Z]+)` takes the text's letters from the start position up to the first non-letter or the end |
| Parser.MatchPatternLeftmost | src/generators/parser.ts:247-248 | the capture is the one taken at the leftmost position where the pattern matches |
| Parser.FirstCapture | src/generators/parser.ts:246-253 | the answer is the capture of the first pattern in list order that matches, and none when none does |
| Parser.MatchPatternAt | src/generators/parser.ts:247-248 | a match with no earlier occurrence of the pattern's first letter is the leftmost one, and its capture is returned |
| Parser.ButtonLikeStripe | src/generators/parser.ts:238-253 | "create a button like Stripe" compares with `Stripe`, as tests/parser.test.ts:121-122 expects |
| CodeGen.FindPrefixed | src/generators/code-generator.ts:64 | the constraint chosen is the first one with the prefix; none exactly when no constraint has it |
| CodeGen.SecondField | src/generators/code-generator.ts:66 | `split(':')[1]` is undefined exactly when there is no colon, and holds no colon |
| CodeGen.SecondFieldOfTagged | src/generators/code-generator.ts:64-74 | a constraint written by the parser as `category:value` yields its value back |
| CodeGen.TailwindColor | src/generators/code-generator.ts:666-676 | the colour used is always one of the seven mapped names; a mapped colour maps to itself and anything else to blue |
| CodeGen.TailwindSize | src/generators/code-generator.ts:690-699 | small/sm give sm, medium/md give md, large/lg give lg, and any other or absent size gives md |
| CodeGen.GenerateCode | src/generators/code-generator.ts:6-39 | code generation fails iff the name is not one of the five implemented ones, with the message naming component and framework; button and input code is the constraint-filled template |
| CodeGen.GenerateStyles | src/generators/code-generator.ts:41-58 | a stylesheet is produced iff the styling is plain CSS, and it is the same whatever the component, variant or constraints |
| CodeGen.ColorFillsSlot | src/generators/code-generator.ts:665-687 | recolouring the stock button as the primary variant replaces the primary class cluster with the mapped colour and changes nothing else |
| CodeGen.SizeFillsSlot | src/generators/code-generator.ts:689-708 | resizing fills the React `size = 'md'` default with the mapped size; Vue and Svelte templates, which lack that token, are unchanged |
| CodeGen.ButtonCodeFillsSlots | src/generators/code-generator.ts:60-78 | button code is the template with its colour slot filled from the first colour constraint for the primary variant only, and its size slot from the first size constraint, in React only |
| CodeGen.InputColorFillsSlots | src/generators/code-generator.ts:638-663 | recolouring an input template fills every focus-border slot and the focus-ring slot with the mapped colour |
| CodeGen.InputCodeFillsSlots | src/generators/code-generator.ts:80-91 | input code is the template with its focus colour taken from the first colour constraint, whatever the variant |
| CodeGen.NoDefaultFocusSurvives | src/generators/code-generator.ts:652-660 | with a mapped colour other than blue, no `focus:border-blue-500` or `focus:ring-blue-500` remains in any text |
| CodeGen.InputColorIdempotent | src/generators/code-generator.ts:638-663 | recolouring twice with the same colour equals recolouring once |
| CodeGen.BlackChoosesDefaults | src/generators/code-generator.ts:64-74 | a lone `color:black` constraint, which the parser can emit, chooses blue and the default size |
| CodeGen.UnmappedColorKeepsButton | src/generators/code-generator.ts:665-687 | a colour outside the map leaves the button exactly as the stock template |
| CodeGen.UnrewrittenComponents | src/generators/code-generator.ts:1056-1069 | card, modal and alert code is the base template whatever the constraints, even though the React modal holds a `size = 'md'` token |
| Library.Load | src/generators/component-library.ts:12-42 | construction stores each kind whose configuration loads under that kind, and only those |
| Library.LoadEvery | src/generators/component-library.ts:12-42 | when every configuration loads, the catalog pairs each kind with its configuration in insertion order |
| Library.CatalogContents | src/generators/component-library.ts:12-42 | after construction the catalog holds exactly five entries, button, input, card, modal and alert, in insertion order |
| Library.Find | src/generators/component-library.ts:418-420 | lookup answers null exactly when no entry has the key, and otherwise a definition stored under it |
| Library.LoadFind | src/generators/component-library.ts:12-42 | looking up a kind in what construction built gives exactly what that kind's configuration loads, and null for a kind never loaded |
| Library.FindComponentCases | src/generators/component-library.ts:418-420 | lookup finds the five core kinds with their definitions, and answers null for pricing-table, contact-form, navigation, hero and data-table |
| Library.FindComponentFound | src/generators/component-library.ts:418-420 | lookup succeeds iff the kind was loaded, and what it finds carries one of the five catalog names |
| Library.AllComponentsInOrder | src/generators/component-library.ts:422-424 | listing yields five definitions, each the one its kind loads, in insertion order |
| Library.AllComponentsFields | src/generators/component-library.ts:422-424 | the listed definitions carry the names Button, Input, Card, Modal, Alert in order, all in the core category |
| Library.CategoryContents | src/generators/component-library.ts:426-428 | filtering by `core` returns the whole listing, and `composite` or `layout` return nothing |
| Library.FilterAll | src/generators/component-library.ts:426-428 | a filter keeps everything when every element passes and nothing when none does |
| Library.SearchIn | src/generators/component-library.ts:430-454 | a component is in the results iff its lower-cased name, one of its keywords as written, or its lower-cased description contains the query |
| Library.SearchIsFilter | src/generators/component-library.ts:434-451 | the three-tier loop with `continue` is an order-preserving filter, so each component appears at most once |
| Library.SearchComponentsSpec | src/generators/component-library.ts:430-454 | search results are a duplicate-free subsequence of the catalog, containing a component iff one of the three tiers accepts the lower-cased query |
| Library.EmptyQueryFindsAll | src/generators/component-library.ts:430-454 | the empty query returns every component |
| Library.CatalogDistinct | src/generators/component-library.ts:422-424 | the listed definitions are pairwise different |
| Library.VariantCounts | src/generators/component-library.ts:55-372 | button, input, card and modal have three variants each, alert four |
| Generator.SelectVariants | src/generators/component-generator.ts:91-94 | at most three variants are selected, always a prefix of the definition's list, and all of them when there are fewer than three |
| Generator.AlertDropsError | src/generators/component-generator.ts:91-94 | the alert renders info, success and warning; its error variant is never rendered |
| Generator.RenderVariants | src/generators/component-generator.ts:52-89 | each rendered variant keeps its name and description, gets the component's dependencies and props, and carries code and styles for the requested framework and styling with the parsed constraints; a code-generation error aborts |
| Generator.IntegrationInstructions | src/generators/component-generator.ts:96-126 | install comes first with the framework's packages; with Tailwind the setup step is second and, for React only, the utility step third; usage names the framework and customisation is last |
| Generator.InstructionLabels | src/generators/component-generator.ts:106-123 | the instructions are numbered 1-5 for React with Tailwind, 1, 2, 4, 5 for Vue or Svelte with Tailwind, and 1, 3, 4 without Tailwind |
| Generator.Respond | src/generators/component-generator.ts:17-50 | a missing kind throws the not-found error; otherwise the response renders the selected variants, and the metadata takes kind and features from the parse, framework and styling from the request, accessibility always true and responsive iff `responsive` was parsed |
| Generator.GenerateComponentOutcome | src/generators/component-generator.ts:17-27 | generation fails exactly when the parsed kind is not one of the five catalog kinds, and then with `Component type "<kind>" not found` |
| Generator.RequestExtrasIgnored | src/generators/component-generator.ts:17-89 | two requests that differ only in their features and constraints get the same response |
| Generator.RespondReadsTargetsOnly | src/generators/component-generator.ts:29-43 | of the request, only framework and styling influence the response once the intent is parsed |
| Generator.QuickGenerateTargetsParse | src/generators/component-generator.ts:129-139 | quick generation is full generation for the framework and styling the parse found, whatever features and constraints the request carries |
| Generator.QuickGenerateMetadata | src/generators/component-generator.ts:129-139 | the metadata of a quick generation reports the framework and styling the parse found |
| Generator.PricingTableNotFound | src/generators/component-generator.ts:19-26 | a description containing "pricing" and "table", in any letter case, always fails with the pricing-table not-found error |

## Left out

- Template bodies. Each React, Vue and Svelte template (code-generator.ts:132-157, 158-636, 782-1053) is a run of placeholder pieces around the exact tokens the rewrites search for, in source order. The placeholders avoid the first characters of those tokens, so every rewrite sees the same occurrences as in the real templates. The rendered component text itself is not reproduced.
- The CSS stylesheet text (code-generator.ts:710-780) is one fixed placeholder string: its contents never depend on the inputs.
- The `generatedAt: new Date()` metadata field is left out, because it reads the clock.
- `async`/`Promise` and the library's `try`/`catch` around hard-coded data are left out: nothing in them can fail.
- JavaScript prototype keys such as `"constructor"` in `colorMap[color]`, `sizeMap[size]` and `frameworkDeps[...]` are left out. The model treats the maps as plain finite tables.
- Regular expressions: only the two patterns of `extractQuantity` and `extractComparison` are modelled, as their greedy match. `parseInt` is read as an unbounded natural number, without the loss of precision above 2^53.
- `toLowerCase` is modelled for ASCII letters only. `trim` and `\s` use the white-space set of the ECMAScript standard.
- Confidence uses exact reals rather than IEEE doubles. Sums such as 0.1 + 0.05 are therefore exact.
- Parser.Quantity: states when a quantity exists but not its value; the value is the decimal reading of the digit run at the leftmost match, and `MatchExtendsToRunStart` says that run is a whole number.
- The component-kind example sentences of tests/parser.test.ts ("create a modal dialog" at line 24, "create something" at line 104) are not evaluated one by one. Ruling out each of the 35 table keywords in a literal sentence is too costly for the verifier. `Parser.ComponentTypeIsFirstMaximum`, `Parser.ComponentTypeDefault` and `Parser.CalculateConfidence` state the general rules those sentences instantiate.
- Lookups (`findComponent`, `getAllComponents`, `getComponentsByCategory`, `searchComponents`) are functions of the catalog value, so they cannot mutate it, and no separate lemma says so.

=== FILE: codegen.dfy ===
/** The code generator (src/generators/code-generator.ts): dispatch on the
    component name, choice of the first applicable constraint, and the text
    rewrites that carry a colour or a size into a framework's base template.

    The template bodies are not reproduced. Each template is a sequence of
    placeholder pieces around the exact tokens the rewrites look for, in the
    order they appear in the source; the placeholders contain none of the
    characters those tokens start with ('b', 'f', 's'), so the rewrites see
    the same occurrences as in the real templates. Each template is written
    as a function of the values filling its tokens, and the stock template
    is that function at the defaults ("blue", "md"). */
module CodeGen {
  import opened Wrappers
  import opened Strings
  import opened Types

  // ---------------------------------------------------------------------------
  // Choosing a constraint
  // ---------------------------------------------------------------------------

  /** `constraints.find(c => c.startsWith(prefix))`. */
  function FindPrefixed(constraints: seq<string>, prefix: string): (r: Option<string>)
    ensures r.None? <==> forall i | 0 <= i < |constraints| :: !IsPrefix(prefix, constraints[i])
    ensures r.Some? ==> exists i | 0 <= i < |constraints| ::
      constraints[i] == r.value && IsPrefix(prefix, r.value)
      && forall j | 0 <= j < i :: !IsPrefix(prefix, constraints[j])
  {
    if |constraints| == 0 then None
    else if IsPrefix(prefix, constraints[0]) then Some(constraints[0])
    else
      var r := FindPrefixed(constraints[1..], prefix);
      assert forall i | 1 <= i < |constraints| :: constraints[i] == constraints[1..][i - 1];
      r
  }

  /** The text before the first `sep` of `s`, or all of `s`. */
  function UpTo(s: string, sep: char): (r: string)
    ensures sep !in r
    ensures |r| <= |s| && s[..|r|] == r
    ensures |r| == |s| || s[|r|] == sep
  {
    if |s| == 0 || s[0] == sep then ""
    else
      var t := UpTo(s[1..], sep);
      assert s[1..][..|t|] == s[1..|t| + 1];
      [s[0]] + t
  }

  /** `c.split(':')[1]`: the field between the first and the second colon;
      absent (`undefined`) when `c` has no colon. */
  function SecondField(c: string): (r: Option<string>)
    ensures r.None? <==> ':' !in c
    ensures r.Some? ==> ':' !in r.value
  {
    if |c| == 0 then None
    else if c[0] == ':' then Some(UpTo(c[1..], ':'))
    else
      assert c == [c[0]] + c[1..];
      SecondField(c[1..])
  }

  /** A constraint as the parser writes it, category and value joined by a
      colon, yields its value back. */
  lemma {:induction false} SecondFieldOfTagged(category: string, value: string)
    requires ':' !in category && ':' !in value
    ensures SecondField(category + ":" + value) == Some(value)
    decreases |category|
  {
    var c := category + ":" + value;
    if |category| == 0 {
      assert c == [':'] + value;
      assert c[1..] == value;
      assert UpTo(value, ':') == value;
    } else {
      assert c[0] == category[0] && c[0] != ':';
      assert c[1..] == category[1..] + ":" + value;
      SecondFieldOfTagged(category[1..], value);
    }
  }

  // ---------------------------------------------------------------------------
  // Colour and size names
  // ---------------------------------------------------------------------------

  /** The keys of the colour maps, each mapped to itself. */
  const TailwindColors: seq<string> := ["red", "green", "blue", "yellow", "purple", "pink", "gray"]

  /** `colorMap[color] || 'blue'`. */
  function TailwindColor(color: Option<string>): (r: string)
    ensures r in TailwindColors
    ensures color.Some? && color.value in TailwindColors ==> r == color.value
    ensures color.None? || color.value !in TailwindColors ==> r == "blue"
  {
    if color.Some? && color.value in TailwindColors then color.value else "blue"
  }

  /** The keys of the size map; each maps to one of the Tailwind sizes. */
  const SizeNames: seq<string> := ["small", "medium", "large", "sm", "md", "lg"]

  const TailwindSizes: seq<string> := ["sm", "md", "lg"]

  /** `sizeMap[size] || 'md'`. */
  function TailwindSize(size: Option<string>): (r: string)
    ensures r in TailwindSizes
    ensures size == Some("small") || size == Some("sm") ==> r == "sm"
    ensures size == Some("medium") || size == Some("md") ==> r == "md"
    ensures size == Some("large") || size == Some("lg") ==> r == "lg"
    ensures size.None? || size.value !in SizeNames ==> r == "md"
  {
    if size == Some("small") || size == Some("sm") then "sm"
    else if size == Some("large") || size == Some("lg") then "lg"
    else "md"
  }

  /** The colour the constraints ask for: the first `color:` constraint's
      field through the colour map, "blue" when there is none. */
  function ChosenColor(constraints: seq<string>): string {
    match FindPrefixed(constraints, "color:")
    case None => "blue"
    case Some(c) => TailwindColor(SecondField(c))
  }

  /** The size the constraints ask for, "md" when there is none. */
  function ChosenSize(constraints: seq<string>): string {
    match FindPrefixed(constraints, "size:")
    case None => "md"
    case Some(c) => TailwindSize(SecondField(c))
  }

  // ---------------------------------------------------------------------------
  // Tokens and templates
  // ---------------------------------------------------------------------------

  /** The class list of the primary button variant in a colour. */
  function PrimaryClassesIn(color: string): string {
    "bg-" + color + "-600 text-white hover:bg-" + color + "-700 active:bg-" + color + "-800"
  }

  /** The default-size binding of the React button. */
  function SizeDefaultIn(size: string): string {
    "size = '" + size + "'"
  }

  function FocusBorderIn(color: string): string {
    "focus:border-" + color + "-500"
  }

  function FocusRingIn(color: string): string {
    "focus:ring-" + color + "-500"
  }

  /** The texts the rewrites search for: the tokens at their defaults. */
  const PrimaryClasses: string := PrimaryClassesIn("blue")
  const SizeDefault: string := SizeDefaultIn("md")
  const FocusBorder: string := FocusBorderIn("blue")
  const FocusRing: string := FocusRingIn("blue")

  /** A placeholder standing for one stretch of a template's text. */
  function Part(f: Framework, component: string, n: string): string {
    "<" + FrameworkLabel(f) + " " + component + " template, part " + n + ">"
  }

  /** The capitalised framework name used in the placeholders. */
  function FrameworkLabel(f: Framework): string {
    match f
    case React => "React"
    case Vue => "Vue"
    case Svelte => "Svelte"
  }

  /** The placeholders hold none of the characters the searched tokens
      start with. */
  lemma PartFree(f: Framework, component: string, n: string)
    requires component in ["Button", "Input", "Card", "Modal", "Alert"]
    requires n in ["1", "2", "3", "4"]
    ensures 'b' !in Part(f, component, n) && 'f' !in Part(f, component, n) && 's' !in Part(f, component, n)
  {
    var name := FrameworkLabel(f);
    assert 'b' !in name && 'f' !in name && 's' !in name;
    assert 'b' !in component && 'f' !in component && 's' !in component;
    assert 'b' !in n && 'f' !in n && 's' !in n;
    var middle := " template, part ";
    assert 'b' !in middle && 'f' !in middle && 's' !in middle;
    var x := "<" + name + " " + component + middle + n + ">";
    forall c | c in x ensures c != 'b' && c != 'f' && c != 's' {
      assert c in "<" || c in name || c in " " || c in component || c in middle || c in n || c in ">";
    }
  }

  /** The button template with its primary colour and default size filled
      in. Only the React template binds the size default with the searched
      spelling (the Vue and Svelte ones write `size: 'md'` and
      `export let size ... = 'md'`), so only it has a size slot. */
  function ButtonTemplateIn(f: Framework, color: string, size: string): string {
    if f == React then
      Part(f, "Button", "1") + (SizeDefaultIn(size) + (Part(f, "Button", "2")
        + (PrimaryClassesIn(color) + Part(f, "Button", "3"))))
    else
      Part(f, "Button", "1") + (PrimaryClassesIn(color) + Part(f, "Button", "2"))
  }

  /** The input template with its focus colour filled in: the default and
      outlined variants carry a focus border, the filled one a focus ring,
      in the same order in all three frameworks. */
  function InputTemplateIn(f: Framework, color: string): string {
    Part(f, "Input", "1") + (FocusBorderIn(color)
      + (Part(f, "Input", "2") + (FocusRingIn(color)
      + (Part(f, "Input", "3") + (FocusBorderIn(color) + Part(f, "Input", "4"))))))
  }

  function CardTemplate(f: Framework): string {
    match f
    case React => Part(f, "Card", "1")
    case Vue => "<!-- Vue Card implementation -->"
    case Svelte => "<!-- Svelte Card implementation -->"
  }

  /** The React modal also binds `size = 'md'`; its applier ignores it. */
  function ModalTemplate(f: Framework): string {
    match f
    case React => Part(f, "Modal", "1") + (SizeDefault + Part(f, "Modal", "2"))
    case Vue => "<!-- Vue Modal implementation -->"
    case Svelte => "<!-- Svelte Modal implementation -->"
  }

  function AlertTemplate(f: Framework): string {
    match f
    case React => Part(f, "Alert", "1")
    case Vue => "<!-- Vue Alert implementation -->"
    case Svelte => "<!-- Svelte Alert implementation -->"
  }

  /** `getBaseButtonCode` and `getBaseInputCode`. */
  function ButtonTemplate(f: Framework): string {
    ButtonTemplateIn(f, "blue", "md")
  }

  function InputTemplate(f: Framework): string {
    InputTemplateIn(f, "blue")
  }

  // ---------------------------------------------------------------------------
  // Rewrites
  // ---------------------------------------------------------------------------

  /** `applyColorConstraint`: only the primary variant is recoloured, and
      only the first occurrence of its class list. */
  function ApplyColor(code: string, color: Option<string>, variant: string): string {
    if variant == "primary" then ReplaceFirst(code, PrimaryClasses, PrimaryClassesIn(TailwindColor(color)))
    else code
  }

  /** `applySizeConstraint`: the first default-size binding is rewritten. */
  function ApplySize(code: string, size: Option<string>): string {
    ReplaceFirst(code, SizeDefault, SizeDefaultIn(TailwindSize(size)))
  }

  /** `applyInputColorConstraint`: every focus border, then every focus ring. */
  function ApplyInputColor(code: string, color: Option<string>): string {
    var c := TailwindColor(color);
    ReplaceAll(ReplaceAll(code, FocusBorder, FocusBorderIn(c)), FocusRing, FocusRingIn(c))
  }

  /** `generateButtonCode`: colour first, then size. */
  function ButtonCode(variant: VariantDefinition, f: Framework, constraints: seq<string>): string {
    var base := ButtonTemplate(f);
    var colored := match FindPrefixed(constraints, "color:")
      case None => base
      case Some(c) => ApplyColor(base, SecondField(c), variant.name);
    match FindPrefixed(constraints, "size:")
    case None => colored
    case Some(c) => ApplySize(colored, SecondField(c))
  }

  /** `generateInputCode`. */
  function InputCode(f: Framework, constraints: seq<string>): string {
    match FindPrefixed(constraints, "color:")
    case None => InputTemplate(f)
    case Some(c) => ApplyInputColor(InputTemplate(f), SecondField(c))
  }

  /** `generateCardCode`, `generateModalCode`, `generateAlertCode`: their
      appliers return the code unchanged, so only the template remains. The
      alert applier would look for a `type:` constraint. */
  function CardCode(f: Framework, constraints: seq<string>): string {
    CardTemplate(f)
  }

  function ModalCode(f: Framework, constraints: seq<string>): string {
    ModalTemplate(f)
  }

  function AlertCode(f: Framework, constraints: seq<string>): string {
    AlertTemplate(f)
  }

  /** The component names the generator implements. */
  const Implemented: seq<string> := ["Button", "Input", "Card", "Modal", "Alert"]

  /** `generateCode`: dispatch on the component's name. */
  function GenerateCode(
    component: ComponentDefinition, variant: VariantDefinition, f: Framework,
    styling: Styling, constraints: seq<string>): (r: Result<string>)
    ensures r.Failure? <==> component.name !in Implemented
    ensures r.Failure? ==>
      r.error == "Code generation not implemented for " + component.name + " in " + FrameworkName(f)
    ensures component.name == "Button" ==> r == Success(ButtonCode(variant, f, constraints))
    ensures component.name == "Input" ==> r == Success(InputCode(f, constraints))
  {
    if component.name == "Button" then Success(ButtonCode(variant, f, constraints))
    else if component.name == "Input" then Success(InputCode(f, constraints))
    else if component.name == "Card" then Success(CardCode(f, constraints))
    else if component.name == "Modal" then Success(ModalCode(f, constraints))
    else if component.name == "Alert" then Success(AlertCode(f, constraints))
    else Failure("Code generation not implemented for " + component.name + " in " + FrameworkName(f))
  }

  /** The stylesheet returned for plain CSS. Its rules (the button's base,
      variant and size classes) are not reproduced. */
  const ButtonStylesheet: string := "<button stylesheet>"

  /** `generateStyles`: Tailwind styles are inline, plain CSS gets the one
      button stylesheet whatever the component, variant or constraints, and
      the other styling systems get nothing. */
  function GenerateStyles(
    component: ComponentDefinition, variant: VariantDefinition, styling: Styling,
    constraints: seq<string>): (r: Option<string>)
    ensures r.Some? <==> styling == Css
    ensures r.Some? ==> r.value == ButtonStylesheet
  {
    if styling == Tailwind then None
    else if styling == Css then Some(ButtonStylesheet)
    else None
  }

  // ---------------------------------------------------------------------------
  // What the rewrites do to the templates
  // ---------------------------------------------------------------------------

  /** The colour names that can reach a template hold none of the
      characters the searched tokens start with, nor the hyphen. */
  lemma ColorLetters(color: string)
    requires color in TailwindColors
    ensures 'f' !in color && 's' !in color && '-' !in color
  {
  }

  /** The tokens start with the characters the placeholders avoid. */
  lemma TokenHeads(color: string)
    ensures PrimaryClassesIn(color)[0] == 'b' && SizeDefaultIn(color)[0] == 's'
    ensures FocusBorderIn(color)[0] == 'f' && FocusRingIn(color)[0] == 'f'
    ensures FocusBorderIn(color)[6] == 'b' && FocusRingIn(color)[6] == 'r'
  {
  }

  /** A filled size binding holds no 'b' and a filled class list no 's'. */
  lemma SlotsFree(color: string, size: string)
    requires color in TailwindColors && size in TailwindSizes
    ensures 'b' !in SizeDefaultIn(size) && 's' !in PrimaryClassesIn(color)
  {
    ColorLetters(color);
    assert 's' !in "bg-" && 's' !in "-600 text-white hover:bg-" && 's' !in "-700 active:bg-" && 's' !in "-800";
  }

  /** A filled focus token holds its leading 'f' nowhere else. */
  lemma FocusHeadUnique(color: string)
    requires color in TailwindColors
    ensures HeadUnique(FocusBorderIn(color)) && HeadUnique(FocusRingIn(color))
  {
    ColorLetters(color);
    var b, r := FocusBorderIn(color), FocusRingIn(color);
    assert b[1..] == "ocus:border-" + color + "-500";
    assert r[1..] == "ocus:ring-" + color + "-500";
    assert 'f' !in "ocus:border-" && 'f' !in "ocus:ring-" && 'f' !in "-500";
  }

  /** Recolouring the stock button template as the primary variant fills
      its colour slot. */
  lemma ColorFillsSlot(f: Framework, color: Option<string>)
    ensures ApplyColor(ButtonTemplate(f), color, "primary") == ButtonTemplateIn(f, TailwindColor(color), "md")
  {
    var c := TailwindColor(color);
    TokenHeads("blue");
    SlotsFree(c, "md");
    var p, rep := PrimaryClasses, PrimaryClassesIn(c);
    var h1, h2, h3 := Part(f, "Button", "1"), Part(f, "Button", "2"), Part(f, "Button", "3");
    PartFree(f, "Button", "1");
    PartFree(f, "Button", "2");
    if f == React {
      PartFree(f, "Button", "3");
      FirstPassFree(h1, SizeDefault + (h2 + (p + h3)), p, rep);
      FirstPassFree(SizeDefault, h2 + (p + h3), p, rep);
      FirstPassFree(h2, p + h3, p, rep);
      ReplaceFirstAtHead(p, h3, rep);
    } else {
      FirstPassFree(h1, p + h2, p, rep);
      ReplaceFirstAtHead(p, h2, rep);
    }
  }

  /** Resizing a button template fills the React size slot and changes
      nothing in the Vue and Svelte templates, which lack the searched
      binding. */
  lemma SizeFillsSlot(f: Framework, color: string, size: Option<string>)
    requires color in TailwindColors
    ensures ApplySize(ButtonTemplateIn(f, color, "md"), size)
      == ButtonTemplateIn(f, color, if f == React then TailwindSize(size) else "md")
  {
    var s, rep := SizeDefault, SizeDefaultIn(TailwindSize(size));
    TokenHeads("md");
    var p := PrimaryClassesIn(color);
    var h1, h2 := Part(f, "Button", "1"), Part(f, "Button", "2");
    PartFree(f, "Button", "1");
    if f == React {
      var h3 := Part(f, "Button", "3");
      FirstPassFree(h1, s + (h2 + (p + h3)), s, rep);
      ReplaceFirstAtHead(s, h2 + (p + h3), rep);
    } else {
      PartFree(f, "Button", "2");
      SlotsFree(color, "md");
      FreeWithoutHead(h1 + (p + h2), s);
    }
  }

  /** `generateButtonCode` fills the colour slot with the first colour
      constraint, for the primary variant only, and the React size slot with
      the first size constraint; the rest of the template is untouched. */
  lemma ButtonCodeFillsSlots(variant: VariantDefinition, f: Framework, constraints: seq<string>)
    ensures ButtonCode(variant, f, constraints) == ButtonTemplateIn(f,
      if variant.name == "primary" then ChosenColor(constraints) else "blue",
      if f == React then ChosenSize(constraints) else "md")
  {
    var color := if variant.name == "primary" then ChosenColor(constraints) else "blue";
    var colored := match FindPrefixed(constraints, "color:")
      case None => ButtonTemplate(f)
      case Some(c) => ApplyColor(ButtonTemplate(f), SecondField(c), variant.name);
    match FindPrefixed(constraints, "color:") {
      case None =>
      case Some(c) =>
        if variant.name == "primary" {
          ColorFillsSlot(f, SecondField(c));
        }
    }
    assert colored == ButtonTemplateIn(f, color, "md");
    match FindPrefixed(constraints, "size:") {
      case None =>
      case Some(c) => SizeFillsSlot(f, color, SecondField(c));
    }
  }

  /** Recolouring an input template fills its focus colour slots: every
      focus border and the focus ring. */
  lemma InputColorFillsSlots(f: Framework, color: Option<string>)
    ensures ApplyInputColor(InputTemplate(f), color) == InputTemplateIn(f, TailwindColor(color))
  {
    var c := TailwindColor(color);
    TokenHeads(c);
    TokenHeads("blue");
    FocusHeadUnique(c);
    FocusHeadUnique("blue");
    var h1, h2, h3, h4 := Part(f, "Input", "1"), Part(f, "Input", "2"), Part(f, "Input", "3"), Part(f, "Input", "4");
    PartFree(f, "Input", "1");
    PartFree(f, "Input", "2");
    PartFree(f, "Input", "3");
    PartFree(f, "Input", "4");
    var b, r := FocusBorder, FocusRing;
    var b', r' := FocusBorderIn(c), FocusRingIn(c);
    DisagreeNoPrefix(r, b, 6);
    DisagreeNoPrefix(r, b', 6);
    // every focus border
    PassFree(h1, b + (h2 + (r + (h3 + (b + h4)))), b, b');
    ReplaceAllAtHead(b, h2 + (r + (h3 + (b + h4))), b');
    PassFree(h2, r + (h3 + (b + h4)), b, b');
    PassLead(r, h3 + (b + h4), b, b');
    PassFree(h3, b + h4, b, b');
    ReplaceAllAtHead(b, h4, b');
    PassEnd(h4, b, b');
    // then the focus ring
    PassFree(h1, b' + (h2 + (r + (h3 + (b' + h4)))), r, r');
    PassLead(b', h2 + (r + (h3 + (b' + h4))), r, r');
    PassFree(h2, r + (h3 + (b' + h4)), r, r');
    ReplaceAllAtHead(r, h3 + (b' + h4), r');
    PassFree(h3, b' + h4, r, r');
    PassLead(b', h4, r, r');
    PassEnd(h4, r, r');
  }

  /** `generateInputCode` fills the focus colour with the first colour
      constraint, whatever the variant. */
  lemma InputCodeFillsSlots(f: Framework, constraints: seq<string>)
    ensures InputCode(f, constraints) == InputTemplateIn(f, ChosenColor(constraints))
  {
    match FindPrefixed(constraints, "color:") {
      case None =>
      case Some(c) => InputColorFillsSlots(f, SecondField(c));
    }
  }

  /** A focus colour other than blue leaves no default focus token behind,
      in any text. */
  lemma NoDefaultFocusSurvives(code: string, color: Option<string>)
    requires TailwindColor(color) != "blue"
    ensures !Contains(ApplyInputColor(code, color), FocusBorder)
    ensures !Contains(ApplyInputColor(code, color), FocusRing)
  {
    var c := TailwindColor(color);
    var b, r, b', r' := FocusBorder, FocusRing, FocusBorderIn(c), FocusRingIn(c);
    ColorLetters(c);
    TokenHeads(c);
    TokenHeads("blue");
    FocusHeadUnique(c);
    FocusHeadUnique("blue");
    DistinctFills("focus:border-", "blue", c, "-500");
    DistinctFills("focus:border-", c, "blue", "-500");
    DistinctFills("focus:ring-", "blue", c, "-500");
    DistinctFills("focus:ring-", c, "blue", "-500");
    DisagreeNoPrefix(b, r', 6);
    var once := ReplaceAll(code, b, b');
    ReplaceAllLeavesNo(code, b, b', b);
    ReplaceAllLeavesNo(once, r, r', r);
    ReplaceAllLeavesNo(once, r, r', b);
  }

  /** Recolouring inputs twice with the same colour is recolouring once. */
  lemma InputColorIdempotent(code: string, color: Option<string>)
    ensures ApplyInputColor(ApplyInputColor(code, color), color) == ApplyInputColor(code, color)
  {
    var c := TailwindColor(color);
    var once := ApplyInputColor(code, color);
    if c == "blue" {
      ReplaceAllSelf(code, FocusBorder);
      ReplaceAllSelf(code, FocusRing);
      ReplaceAllSelf(once, FocusBorder);
      ReplaceAllSelf(once, FocusRing);
    } else {
      NoDefaultFocusSurvives(code, color);
      ReplaceAllAbsent(once, FocusBorder, FocusBorderIn(c));
      ReplaceAllAbsent(once, FocusRing, FocusRingIn(c));
    }
  }

  /** The parser can emit "black", which the colour map lacks. */
  lemma BlackUnmapped()
    ensures "black" !in TailwindColors
  {
    assert forall k | 0 <= k < |TailwindColors| :: |TailwindColors[k]| != 5 || TailwindColors[k][0] != 'b';
  }

  /** A lone "color:black" constraint chooses blue and the default size. */
  lemma BlackChoosesDefaults()
    ensures ChosenColor(["color:black"]) == "blue" && ChosenSize(["color:black"]) == "md"
  {
    BlackChoosesBlue();
    BlackKeepsSize();
  }

  lemma BlackChoosesBlue()
    ensures ChosenColor(["color:black"]) == "blue"
  {
    var c := "color:black";
    assert IsPrefix("color:", c) by {
      assert c[..6] == "color:";
    }
    ChosenColorSingle(c);
    BlackField();
    BlackUnmapped();
  }

  lemma BlackField()
    ensures SecondField("color:black") == Some("black")
  {
    SecondFieldOfTagged("color", "black");
    assert "color" + ":" + "black" == "color:black";
  }

  /** A lone colour constraint is the one the generator reads. */
  lemma ChosenColorSingle(c: string)
    requires IsPrefix("color:", c)
    ensures ChosenColor([c]) == TailwindColor(SecondField(c))
  {
  }

  lemma BlackKeepsSize()
    ensures ChosenSize(["color:black"]) == "md"
  {
    var cs := ["color:black"];
    assert !IsPrefix("size:", cs[0]) by {
      assert cs[0][0] != "size:"[0];
    }
  }

  /** A colour outside the map, such as the parser's "black", falls back to
      blue and leaves the button as it was. */
  lemma UnmappedColorKeepsButton(f: Framework, variant: VariantDefinition)
    ensures ButtonCode(variant, f, ["color:black"]) == ButtonTemplate(f)
  {
    BlackChoosesDefaults();
    ButtonCodeFillsSlots(variant, f, ["color:black"]);
  }

  /** Card, modal and alert code is the base template whatever the
      constraints, even the React modal's own `size = 'md'` under a size
      constraint. */
  lemma UnrewrittenComponents(
    component: ComponentDefinition, variant: VariantDefinition, f: Framework,
    styling: Styling, constraints: seq<string>)
    ensures component.name == "Card" ==> GenerateCode(component, variant, f, styling, constraints) == Success(CardTemplate(f))
    ensures component.name == "Modal" ==> GenerateCode(component, variant, f, styling, constraints) == Success(ModalTemplate(f))
    ensures component.name == "Alert" ==> GenerateCode(component, variant, f, styling, constraints) == Success(AlertTemplate(f))
    ensures f == React ==> Contains(ModalTemplate(f), SizeDefault)
  {
    if f == React {
      var h := Part(f, "Modal", "1");
      var t := SizeDefault + Part(f, "Modal", "2");
      assert t[..|SizeDefault|] == SizeDefault;
      assert OccursAt(h + t, SizeDefault, |h|) by {
        assert (h + t)[|h|..|h| + |SizeDefault|] == t[..|SizeDefault|];
      }
      ContainsIff(h + t, SizeDefault);
    }
  }
}

=== FILE: generator.dfy ===
/** The orchestrator (src/generators/component-generator.ts): parse the
    description, look the kind up in the catalog, render up to three of its
    variants for the requested framework and styling, and attach metadata and
    numbered integration instructions. A thrown `Error` is a `Failure`. */
module Generator {
  import opened Wrappers
  import opened Strings
  import opened Types
  import Parser
  import Library
  import CodeGen

  // ---------------------------------------------------------------------------
  // Variants
  // ---------------------------------------------------------------------------

  /** How many variants one response carries at most. */
  const MaxVariants: nat := 3

  /** `selectVariants`: the first three variants, or all of them when there
      are fewer. */
  function SelectVariants(definition: ComponentDefinition): (r: seq<VariantDefinition>)
    ensures |r| <= MaxVariants
    ensures |r| <= |definition.variants| && r == definition.variants[..|r|]
    ensures |r| == MaxVariants || r == definition.variants
  {
    if |definition.variants| <= MaxVariants then definition.variants
    else definition.variants[..MaxVariants]
  }

  /** The alert's four variants are cut to info, success and warning: the
      error variant is never rendered. */
  lemma AlertDropsError()
    ensures |SelectVariants(Library.AlertDefinition)| == 3
    ensures SelectVariants(Library.AlertDefinition)[0].name == "info"
    ensures SelectVariants(Library.AlertDefinition)[1].name == "success"
    ensures SelectVariants(Library.AlertDefinition)[2].name == "warning"
    ensures Library.AlertDefinition.variants[3] !in SelectVariants(Library.AlertDefinition)
  {
    var vs := Library.AlertDefinition.variants;
    assert vs[3].name == "error";
    assert forall k | 0 <= k < 3 :: vs[k].name != "error";
  }

  /** The `for` loop of `generateVariants` over `variants`: each variant's
      code and styles are rendered for the requested framework and styling
      with the parsed constraints, its name and description are its own, its
      dependencies and props the component's. A failing code generation
      aborts the loop. */
  function RenderVariants(
    definition: ComponentDefinition, variants: seq<VariantDefinition>,
    f: Framework, styling: Styling, constraints: seq<string>): (r: Result<seq<ComponentVariant>>)
    ensures r.Failure? <==> |variants| > 0 && definition.name !in CodeGen.Implemented
    ensures r.Failure? ==> Failure(r.error) == CodeGen.GenerateCode(definition, variants[0], f, styling, constraints)
    ensures r.Success? ==> |r.value| == |variants|
    ensures r.Success? ==> forall i | 0 <= i < |variants| ::
      && r.value[i].name == variants[i].name
      && r.value[i].description == variants[i].description
      && CodeGen.GenerateCode(definition, variants[i], f, styling, constraints) == Success(r.value[i].code)
      && r.value[i].styles == CodeGen.GenerateStyles(definition, variants[i], styling, constraints)
      && r.value[i].dependencies == definition.dependencies
      && r.value[i].props == definition.props
  {
    if |variants| == 0 then Success([])
    else
      var v := variants[0];
      match CodeGen.GenerateCode(definition, v, f, styling, constraints)
      case Failure(e) => Failure(e)
      case Success(code) =>
        match RenderVariants(definition, variants[1..], f, styling, constraints)
        case Failure(e) => Failure(e)
        case Success(rest) =>
          var styles := CodeGen.GenerateStyles(definition, v, styling, constraints);
          Success([ComponentVariant(v.name, v.description, code, styles, definition.dependencies, definition.props)] + rest)
  }

  // ---------------------------------------------------------------------------
  // Integration instructions
  // ---------------------------------------------------------------------------

  /** An instruction numbered `n` (a single digit). */
  function Numbered(n: nat, text: string): string
    requires 1 <= n <= 9
  {
    [(48 + n) as char] + ". " + text
  }

  lemma NumberedAt(n: nat, text: string)
    requires 1 <= n <= 9
    ensures |Numbered(n, text)| == |text| + 3
    ensures Numbered(n, text)[0] == (48 + n) as char
    ensures Numbered(n, text)[3..] == text
  {
  }

  /** `frameworkDeps[framework].join(' ')`. */
  function InstallCommand(f: Framework): string {
    "npm install " + FrameworkName(f) + " @types/" + FrameworkName(f)
  }

  const TailwindStep: string := "Make sure Tailwind CSS is configured in your project"
  const UtilityStep: string := "Add the utility function if not already present"
  const CustomizeStep: string := "Customize props as needed for your use case"

  /** `frameworkUsage[framework]`. */
  function UsageStep(f: Framework): string {
    "Import and use the component in your " + CodeGen.FrameworkLabel(f) + " application"
  }

  /** `generateIntegrationInstructions`: install, then the Tailwind steps
      when styling with Tailwind (the utility step for React only), then
      usage and customisation, numbered 4 and 5 after the Tailwind steps and
      3 and 4 otherwise. */
  function IntegrationInstructions(f: Framework, styling: Styling): (r: seq<string>)
    ensures |r| == if styling != Tailwind then 3 else if f == React then 5 else 4
    ensures r[0] == Numbered(1, "Install dependencies: " + InstallCommand(f))
    ensures r[|r| - 2] == Numbered(if styling == Tailwind then 4 else 3, UsageStep(f))
    ensures r[|r| - 1] == Numbered(if styling == Tailwind then 5 else 4, CustomizeStep)
    ensures styling == Tailwind ==> r[1] == Numbered(2, TailwindStep)
    ensures styling == Tailwind && f == React ==> r[2] == Numbered(3, UtilityStep)
  {
    var install := [Numbered(1, "Install dependencies: " + InstallCommand(f))];
    var tailwind :=
      if styling != Tailwind then []
      else if f == React then [Numbered(2, TailwindStep), Numbered(3, UtilityStep)]
      else [Numbered(2, TailwindStep)];
    var n := if styling == Tailwind then 4 else 3;
    install + tailwind + [Numbered(n, UsageStep(f)), Numbered(n + 1, CustomizeStep)]
  }

  /** The first character of every instruction. */
  function Labels(instructions: seq<string>): string
    requires forall i | 0 <= i < |instructions| :: |instructions[i]| > 0
  {
    if |instructions| == 0 then [] else [instructions[0][0]] + Labels(instructions[1..])
  }

  /** The instructions are numbered 1 to 5 for React with Tailwind, 1, 2, 4,
      5 for the other frameworks with Tailwind (3 is skipped), and 1, 3, 4
      without Tailwind (2 is skipped). */
  lemma InstructionLabels(f: Framework, styling: Styling)
    ensures forall i | 0 <= i < |IntegrationInstructions(f, styling)| :: |IntegrationInstructions(f, styling)[i]| > 0
    ensures Labels(IntegrationInstructions(f, styling)) ==
      if styling != Tailwind then "134" else if f == React then "12345" else "1245"
  {
    var r := IntegrationInstructions(f, styling);
    var n := if styling == Tailwind then 4 else 3;
    NumberedAt(1, "Install dependencies: " + InstallCommand(f));
    NumberedAt(2, TailwindStep);
    NumberedAt(3, UtilityStep);
    NumberedAt(n, UsageStep(f));
    NumberedAt(n + 1, CustomizeStep);
    assert forall i | 0 <= i < |r| :: |r[i]| > 0;
    LabelsAt(r);
  }

  lemma {:induction false} LabelsAt(instructions: seq<string>)
    requires forall i | 0 <= i < |instructions| :: |instructions[i]| > 0
    ensures |Labels(instructions)| == |instructions|
    ensures forall i | 0 <= i < |instructions| :: Labels(instructions)[i] == instructions[i][0]
  {
    if |instructions| > 0 {
      LabelsAt(instructions[1..]);
    }
  }

  // ---------------------------------------------------------------------------
  // Generation
  // ---------------------------------------------------------------------------

  /** The message of the error thrown for a kind the catalog lacks. */
  function NotFound(kind: Kind): string {
    "Component type \"" + KindName(kind) + "\" not found"
  }

  /** `generateComponent` once the description has been parsed into
      `intent` and the catalog lookup of its kind has answered `found`: a
      missing kind throws, otherwise up to three variants are rendered for
      the requested framework and styling with the parsed constraints, and
      the metadata records the parsed kind and features. */
  function Respond(request: ComponentRequest, intent: ParsedIntent, found: Option<ComponentDefinition>): (r: Result<ComponentResponse>)
    ensures found.None? ==> r == Failure(NotFound(intent.componentType))
    ensures found.Some? ==> (r.Failure? <==> |found.value.variants| > 0 && found.value.name !in CodeGen.Implemented)
    ensures r.Success? ==>
      && r.value.metadata.componentType == intent.componentType
      && r.value.metadata.features == intent.features
      && r.value.metadata.framework == request.framework
      && r.value.metadata.styling == request.styling
      && r.value.metadata.accessibility
      && (r.value.metadata.responsive <==> "responsive" in intent.features)
      && r.value.integrationInstructions == IntegrationInstructions(request.framework, request.styling)
    ensures r.Success? ==> found.Some? && Success(r.value.variants) == RenderVariants(
      found.value, SelectVariants(found.value), request.framework, request.styling, intent.constraints)
  {
    match found
    case None => Failure(NotFound(intent.componentType))
    case Some(definition) =>
      match RenderVariants(definition, SelectVariants(definition), request.framework, request.styling, intent.constraints)
      case Failure(e) => Failure(e)
      case Success(variants) =>
        var metadata := ComponentMetadata(
          intent.componentType, request.framework, request.styling, intent.features,
          true, "responsive" in intent.features);
        Success(ComponentResponse(variants, metadata, IntegrationInstructions(request.framework, request.styling)))
  }

  /** `generateComponent`. */
  function GenerateComponent(request: ComponentRequest): Result<ComponentResponse> {
    var intent := Parser.Parse(request.description);
    Respond(request, intent, Library.FindComponent(intent.componentType))
  }

  /** Every name in the catalog has a code generator. */
  lemma CatalogImplemented()
    ensures forall name | name in Library.CatalogNames :: name in CodeGen.Implemented
  {
  }

  /** Generation fails exactly when the parsed kind is not one of the five
      in the catalog, and then with the not-found message. */
  lemma GenerateComponentOutcome(request: ComponentRequest)
    ensures var kind := Parser.Parse(request.description).componentType;
      GenerateComponent(request).Failure? <==> kind !in Library.LoadOrder
    ensures var kind := Parser.Parse(request.description).componentType;
      kind !in Library.LoadOrder ==> GenerateComponent(request) == Failure(NotFound(kind))
  {
    var intent := Parser.Parse(request.description);
    Library.FindComponentFound(intent.componentType);
    CatalogImplemented();
  }

  /** The object literal `{}` passed as constraints. */
  const NoConstraints: ProjectConstraints := ProjectConstraints(None, None, None, None)

  /** `quickGenerate`: generate for the framework and styling the
      description itself names (React and Tailwind by default). */
  function QuickGenerate(description: string): Result<ComponentResponse> {
    var intent := Parser.Parse(description);
    GenerateComponent(ComponentRequest(
      description, intent.framework, intent.styling, Some(intent.features), Some(NoConstraints)))
  }

  /** Two requests that agree on description, framework and styling get the
      same response: the request's features and constraints are ignored. */
  lemma RequestExtrasIgnored(a: ComponentRequest, b: ComponentRequest)
    requires a.description == b.description && a.framework == b.framework && a.styling == b.styling
    ensures GenerateComponent(a) == GenerateComponent(b)
  {
    var intent := Parser.Parse(a.description);
    RespondReadsTargetsOnly(a, b, intent, Library.FindComponent(intent.componentType));
  }

  /** Of the request, the response depends on the framework and the
      styling alone. */
  lemma RespondReadsTargetsOnly(
    a: ComponentRequest, b: ComponentRequest, intent: ParsedIntent, found: Option<ComponentDefinition>)
    requires a.framework == b.framework && a.styling == b.styling
    ensures Respond(a, intent, found) == Respond(b, intent, found)
  {
  }

  /** Quick generation is generation for whatever framework and styling the
      parse found, whatever features and constraints a request would add. */
  lemma QuickGenerateTargetsParse(
    description: string, features: Option<seq<string>>, constraints: Option<ProjectConstraints>)
    ensures var intent := Parser.Parse(description);
      QuickGenerate(description)
        == GenerateComponent(ComponentRequest(description, intent.framework, intent.styling, features, constraints))
  {
    var intent := Parser.Parse(description);
    RequestExtrasIgnored(
      ComponentRequest(description, intent.framework, intent.styling, features, constraints),
      ComponentRequest(description, intent.framework, intent.styling, Some(intent.features), Some(NoConstraints)));
  }

  /** The metadata of a quick generation reports the framework and styling
      the parse found. */
  lemma QuickGenerateMetadata(description: string)
    ensures QuickGenerate(description).Success? ==>
      && QuickGenerate(description).value.metadata.framework == Parser.Parse(description).framework
      && QuickGenerate(description).value.metadata.styling == Parser.Parse(description).styling
  {
  }

  /** A description naming both "pricing" and "table", in any case, is parsed
      as a pricing table, which the catalog lacks: generation fails with the
      not-found message for `pricing-table`. */
  lemma PricingTableNotFound(request: ComponentRequest)
    requires Parser.Both(Lower(request.description), "pricing", "table")
    ensures GenerateComponent(request) == Failure(NotFound(PricingTable))
  {
    Parser.PricingTableWords(request.description);
    Library.MissingKinds(PricingTable);
    GenerateComponentOutcome(request);
  }
}

=== FILE: library.dfy ===
/** The component catalog (src/generators/component-library.ts): five
    hard-coded definitions keyed by kind in insertion order, lookup by kind,
    filtering by category and a three-tier text search. Every operation is a
    function of the catalog, which nothing changes after construction. */
module Library {
  import opened Wrappers
  import opened Strings
  import opened Seqs
  import opened Types

  // ---------------------------------------------------------------------------
  // The definitions
  // ---------------------------------------------------------------------------

  const AllFrameworks: seq<Framework> := [React, Vue, Svelte]
  const CatalogStyling: seq<Styling> := [Tailwind, Css, StyledComponents]
  const ReactDependencies: seq<string> := ["react", "@types/react"]

  /** A prop marked `required: true`. */
  function Required(name: string, typeName: string, description: string): Prop {
    Prop(name, PropSpec(typeName, Some(true), None, Some(description)))
  }

  /** A prop with a `default`. */
  function Defaulted(name: string, typeName: string, value: PropValue, description: string): Prop {
    Prop(name, PropSpec(typeName, None, Some(value), Some(description)))
  }

  /** A prop with neither. */
  function Optional(name: string, typeName: string, description: string): Prop {
    Prop(name, PropSpec(typeName, None, None, Some(description)))
  }

  const ButtonDefinition: ComponentDefinition := ComponentDefinition(
    "Button", Core,
    "A customizable button component with multiple variants and states",
    ["button", "btn", "click", "action", "submit", "link"],
    AllFrameworks, CatalogStyling,
    [ VariantDefinition("primary", "Primary button with solid background", ["hover", "focus", "disabled"], Simple),
      VariantDefinition("secondary", "Secondary button with outline style", ["hover", "focus", "disabled"], Simple),
      VariantDefinition("ghost", "Ghost button with transparent background", ["hover", "focus", "disabled"], Simple)],
    [ Required("children", "React.ReactNode", "Button content"),
      Defaulted("variant", "'primary' | 'secondary' | 'ghost'", Text("primary"), "Button variant"),
      Defaulted("size", "'sm' | 'md' | 'lg'", Text("md"), "Button size"),
      Defaulted("disabled", "boolean", Flag(false), "Disabled state"),
      Defaulted("loading", "boolean", Flag(false), "Loading state"),
      Optional("onClick", "() => void", "Click handler"),
      Optional("className", "string", "Additional CSS classes")],
    ReactDependencies, ["useState", "forwardRef"])

  const InputDefinition: ComponentDefinition := ComponentDefinition(
    "Input", Core,
    "A flexible input component with multiple variants and validation states",
    ["input", "textbox", "field", "form", "text", "email", "password"],
    AllFrameworks, CatalogStyling,
    [ VariantDefinition("default", "Standard input with border and focus states", ["focus", "disabled", "error", "placeholder"], Simple),
      VariantDefinition("filled", "Input with filled background style", ["focus", "disabled", "error", "placeholder"], Simple),
      VariantDefinition("outlined", "Input with outlined border style", ["focus", "disabled", "error", "placeholder"], Simple)],
    [ Defaulted("type", "'text' | 'email' | 'password' | 'number' | 'tel' | 'url'", Text("text"), "Input type"),
      Optional("placeholder", "string", "Placeholder text"),
      Optional("value", "string", "Input value"),
      Defaulted("disabled", "boolean", Flag(false), "Disabled state"),
      Defaulted("error", "boolean", Flag(false), "Error state"),
      Optional("helperText", "string", "Helper or error text"),
      Optional("label", "string", "Input label"),
      Defaulted("required", "boolean", Flag(false), "Required field indicator"),
      Optional("onChange", "(value: string) => void", "Change handler"),
      Optional("className", "string", "Additional CSS classes")],
    ReactDependencies, ["useState", "forwardRef"])

  const CardDefinition: ComponentDefinition := ComponentDefinition(
    "Card", Core,
    "A flexible card component with multiple variants and layout options",
    ["card", "panel", "container", "box", "surface"],
    AllFrameworks, CatalogStyling,
    [ VariantDefinition("default", "Standard card with border and shadow", ["shadow", "border", "padding", "responsive"], Simple),
      VariantDefinition("elevated", "Card with elevated shadow and hover effects", ["shadow", "hover", "elevation", "responsive"], Simple),
      VariantDefinition("outlined", "Card with prominent border and no shadow", ["border", "padding", "responsive"], Simple)],
    [ Defaulted("variant", "'default' | 'elevated' | 'outlined'", Text("default"), "Card variant"),
      Defaulted("padding", "'none' | 'sm' | 'md' | 'lg'", Text("md"), "Internal padding"),
      Required("children", "React.ReactNode", "Card content"),
      Optional("header", "React.ReactNode", "Card header content"),
      Optional("footer", "React.ReactNode", "Card footer content"),
      Optional("onClick", "() => void", "Click handler for interactive cards"),
      Optional("className", "string", "Additional CSS classes")],
    ReactDependencies, ["forwardRef"])

  const ModalDefinition: ComponentDefinition := ComponentDefinition(
    "Modal", Core,
    "A modal dialog component with overlay and focus management",
    ["modal", "dialog", "popup", "overlay", "lightbox"],
    AllFrameworks, CatalogStyling,
    [ VariantDefinition("center", "Modal centered on screen with backdrop", ["overlay", "focus-trap", "esc-key", "responsive"], Medium),
      VariantDefinition("fullscreen", "Full screen modal on mobile, centered on desktop", ["overlay", "focus-trap", "responsive", "mobile-full"], Medium),
      VariantDefinition("bottom-sheet", "Bottom sheet modal that slides up from bottom", ["overlay", "slide-up", "responsive"], Medium)],
    [ Required("isOpen", "boolean", "Whether the modal is open"),
      Required("onClose", "() => void", "Function to close the modal"),
      Defaulted("variant", "'center' | 'fullscreen' | 'bottom-sheet'", Text("center"), "Modal variant"),
      Defaulted("size", "'sm' | 'md' | 'lg' | 'xl'", Text("md"), "Modal size"),
      Optional("title", "string", "Modal title"),
      Required("children", "React.ReactNode", "Modal content"),
      Defaulted("showCloseButton", "boolean", Flag(true), "Show close button"),
      Defaulted("closeOnOverlayClick", "boolean", Flag(true), "Close modal when clicking overlay"),
      Optional("className", "string", "Additional CSS classes")],
    ReactDependencies, ["useEffect", "useRef"])

  const AlertDefinition: ComponentDefinition := ComponentDefinition(
    "Alert", Core,
    "An alert component for displaying important messages and notifications",
    ["alert", "notification", "message", "toast", "banner", "warning"],
    AllFrameworks, CatalogStyling,
    [ VariantDefinition("info", "Informational alert with blue color scheme", ["icon", "dismissible", "responsive"], Simple),
      VariantDefinition("success", "Success alert with green color scheme", ["icon", "dismissible", "responsive"], Simple),
      VariantDefinition("warning", "Warning alert with yellow color scheme", ["icon", "dismissible", "responsive"], Simple),
      VariantDefinition("error", "Error alert with red color scheme", ["icon", "dismissible", "responsive"], Simple)],
    [ Defaulted("variant", "'info' | 'success' | 'warning' | 'error'", Text("info"), "Alert variant"),
      Optional("title", "string", "Alert title"),
      Required("children", "React.ReactNode", "Alert content"),
      Defaulted("dismissible", "boolean", Flag(false), "Whether the alert can be dismissed"),
      Optional("onDismiss", "() => void", "Function called when alert is dismissed"),
      Defaulted("showIcon", "boolean", Flag(true), "Show variant icon"),
      Optional("className", "string", "Additional CSS classes")],
    ReactDependencies, ["useState"])

  // ---------------------------------------------------------------------------
  // Construction
  // ---------------------------------------------------------------------------

  /** `loadComponentConfig`: the hard-coded definition for a name, none for
      every other name. */
  function LoadConfig(name: string): Option<ComponentDefinition> {
    if name == "button" then Some(ButtonDefinition)
    else if name == "input" then Some(InputDefinition)
    else if name == "card" then Some(CardDefinition)
    else if name == "modal" then Some(ModalDefinition)
    else if name == "alert" then Some(AlertDefinition)
    else None
  }

  /** One key/value pair of the catalog's map. */
  datatype Entry = Entry(key: Kind, definition: ComponentDefinition)

  /** The kinds `loadComponents` asks for, in the order it asks. */
  const LoadOrder: seq<Kind> := [Button, Input, Card, Modal, Alert]

  /** `loadComponents`: every kind whose configuration loads is set, in
      order, under that kind. */
  function Load(kinds: seq<Kind>, config: Kind -> Option<ComponentDefinition>): (r: seq<Entry>)
    ensures |r| <= |kinds|
    ensures forall e | e in r :: e.key in kinds && config(e.key) == Some(e.definition)
    ensures forall k | k in kinds && config(k).Some? :: Entry(k, config(k).value) in r
  {
    if |kinds| == 0 then []
    else
      var rest := Load(kinds[1..], config);
      assert kinds == [kinds[0]] + kinds[1..];
      match config(kinds[0])
      case None => rest
      case Some(d) => [Entry(kinds[0], d)] + rest
  }

  /** When every configuration loads, the catalog pairs each kind with its
      configuration, in the order asked. */
  lemma {:induction false} LoadEvery(kinds: seq<Kind>, config: Kind -> Option<ComponentDefinition>)
    requires forall k | k in kinds :: config(k).Some?
    ensures |Load(kinds, config)| == |kinds|
    ensures forall i | 0 <= i < |kinds| :: Load(kinds, config)[i] == Entry(kinds[i], config(kinds[i]).value)
  {
    if |kinds| > 0 {
      assert kinds[0] in kinds;
      assert forall k | k in kinds[1..] :: k in kinds;
      LoadEvery(kinds[1..], config);
    }
  }

  /** The lookup `loadComponents` performs for a kind. */
  function ConfigOf(kind: Kind): Option<ComponentDefinition> {
    LoadConfig(KindName(kind))
  }

  /** The catalog after construction. */
  function Catalog(): seq<Entry> {
    Load(LoadOrder, ConfigOf)
  }

  /** The definition the catalog holds for each of the five core kinds. */
  function CoreDefinition(kind: Kind): Option<ComponentDefinition> {
    match kind
    case Button => Some(ButtonDefinition)
    case Input => Some(InputDefinition)
    case Card => Some(CardDefinition)
    case Modal => Some(ModalDefinition)
    case Alert => Some(AlertDefinition)
    case _ => None
  }

  /** A configuration loads exactly for the five core kinds. */
  lemma LoadConfigCases(kind: Kind)
    ensures ConfigOf(kind) == CoreDefinition(kind)
  {
  }

  /** Every kind `loadComponents` asks for has a configuration. */
  lemma EveryCoreLoads()
    ensures forall k | k in LoadOrder :: ConfigOf(k).Some?
  {
    forall k | k in LoadOrder ensures ConfigOf(k).Some? {
      LoadConfigCases(k);
    }
  }

  /** After construction the catalog holds the five core kinds, in
      insertion order, each with the configuration it loads. */
  lemma CatalogContents()
    ensures |Catalog()| == 5
    ensures forall i | 0 <= i < 5 ::
      Catalog()[i].key == LoadOrder[i] && Some(Catalog()[i].definition) == ConfigOf(LoadOrder[i])
  {
    EveryCoreLoads();
    LoadEvery(LoadOrder, ConfigOf);
  }

  // ---------------------------------------------------------------------------
  // Lookup
  // ---------------------------------------------------------------------------

  /** `Map.get`: the definition stored under `kind`, if any. */
  function Find(entries: seq<Entry>, kind: Kind): (r: Option<ComponentDefinition>)
    ensures r.None? <==> forall i | 0 <= i < |entries| :: entries[i].key != kind
    ensures r.Some? ==> exists i | 0 <= i < |entries| :: entries[i] == Entry(kind, r.value)
  {
    if |entries| == 0 then None
    else if entries[0].key == kind then Some(entries[0].definition)
    else
      var r := Find(entries[1..], kind);
      assert forall i | 1 <= i < |entries| :: entries[i] == entries[1..][i - 1];
      r
  }

  /** `findComponent`. */
  function FindComponent(kind: Kind): Option<ComponentDefinition> {
    Find(Catalog(), kind)
  }

  /** Looking a kind up in what `loadComponents` built gives exactly what
      that kind's configuration loads, and nothing for a kind never asked for. */
  lemma LoadFind(kinds: seq<Kind>, config: Kind -> Option<ComponentDefinition>, kind: Kind)
    ensures Find(Load(kinds, config), kind) == if kind in kinds then config(kind) else None
  {
    var entries := Load(kinds, config);
    var r := Find(entries, kind);
    if kind in kinds && config(kind).Some? {
      var e := Entry(kind, config(kind).value);
      assert e in entries;
      var i :| 0 <= i < |entries| && entries[i] == e;
      assert r.Some?;
    }
    if r.Some? {
      var i :| 0 <= i < |entries| && entries[i] == Entry(kind, r.value);
      assert entries[i] in entries;
    }
  }

  /** Lookup finds the five core kinds and nothing else: pricing tables,
      contact forms, navigation, heroes and data tables are absent. */
  lemma FindComponentCases(kind: Kind)
    ensures FindComponent(kind) == CoreDefinition(kind)
    ensures FindComponent(kind).Some? <==> kind in LoadOrder
  {
    assert FindComponent(kind) == if kind in LoadOrder then ConfigOf(kind) else None by {
      LoadFind(LoadOrder, ConfigOf, kind);
    }
    LoadConfigCases(kind);
    CoreKinds(kind);
  }

  /** The core definitions exist for exactly the kinds construction loads. */
  lemma CoreKinds(kind: Kind)
    ensures CoreDefinition(kind).Some? <==> kind in LoadOrder
  {
  }

  /** Every definition lookup returns carries one of the five catalog names. */
  lemma FoundNames(kind: Kind)
    ensures FindComponent(kind).Some? ==> FindComponent(kind).value.name in CatalogNames
  {
    LoadFind(LoadOrder, ConfigOf, kind);
    if kind in LoadOrder {
      var i :| 0 <= i < 5 && LoadOrder[i] == kind;
      CoreFields(i);
    }
  }

  /** Lookup succeeds exactly for the five kinds construction loads, and
      what it finds carries one of the catalog names. */
  lemma FindComponentFound(kind: Kind)
    ensures FindComponent(kind).Some? <==> kind in LoadOrder
    ensures FindComponent(kind).Some? ==> FindComponent(kind).value.name in CatalogNames
  {
    LoadFind(LoadOrder, ConfigOf, kind);
    EveryCoreLoads();
    FoundNames(kind);
  }

  /** The kinds construction never loads. */
  lemma MissingKinds(kind: Kind)
    ensures kind !in LoadOrder <==> kind in [PricingTable, ContactForm, Navigation, Hero, DataTable]
  {
  }

  // ---------------------------------------------------------------------------
  // Listing
  // ---------------------------------------------------------------------------

  /** The map's values, in insertion order. */
  function Definitions(entries: seq<Entry>): (r: seq<ComponentDefinition>)
    ensures |r| == |entries|
    ensures forall i | 0 <= i < |r| :: r[i] == entries[i].definition
  {
    if |entries| == 0 then [] else [entries[0].definition] + Definitions(entries[1..])
  }

  /** `getAllComponents`. */
  function GetAllComponents(): seq<ComponentDefinition> {
    Definitions(Catalog())
  }

  /** The names the five definitions carry. */
  const CatalogNames: seq<string> := ["Button", "Input", "Card", "Modal", "Alert"]

  /** The definition of each core kind carries that kind's display name and
      the core category. */
  lemma CoreFields(i: nat)
    requires i < 5
    ensures ConfigOf(LoadOrder[i]).Some?
    ensures ConfigOf(LoadOrder[i]).value.name == CatalogNames[i]
    ensures ConfigOf(LoadOrder[i]).value.category == Core
  {
    LoadConfigCases(LoadOrder[i]);
  }

  /** Listing yields the five definitions in insertion order: button, input,
      card, modal, alert. */
  lemma AllComponentsInOrder()
    ensures |GetAllComponents()| == 5
    ensures forall i | 0 <= i < 5 :: Some(GetAllComponents()[i]) == ConfigOf(LoadOrder[i])
  {
    CatalogContents();
    EveryCoreLoads();
  }

  /** The listed definitions carry the catalog names and the core category. */
  lemma AllComponentsFields()
    ensures |GetAllComponents()| == |CatalogNames|
    ensures forall i | 0 <= i < |CatalogNames| :: GetAllComponents()[i].name == CatalogNames[i]
    ensures forall d | d in GetAllComponents() :: d.category == Core
  {
    AllComponentsInOrder();
    forall i | 0 <= i < 5 ensures GetAllComponents()[i].name == CatalogNames[i] && GetAllComponents()[i].category == Core {
      CoreFields(i);
    }
  }

  function InCategory(category: Category): ComponentDefinition -> bool {
    (d: ComponentDefinition) => d.category == category
  }

  /** `getComponentsByCategory`. */
  function ComponentsByCategory(category: Category): seq<ComponentDefinition> {
    Filter(GetAllComponents(), InCategory(category))
  }

  /** Every catalog entry is a core component: the core category lists
      them all and the other two are empty. */
  lemma CategoryContents(category: Category)
    ensures category == Core ==> ComponentsByCategory(category) == GetAllComponents()
    ensures category != Core ==> ComponentsByCategory(category) == []
  {
    AllComponentsFields();
    FilterAll(GetAllComponents(), InCategory(category));
  }

  /** Filtering keeps everything when all pass and nothing when none does. */
  lemma {:induction false} FilterAll<T>(xs: seq<T>, p: T -> bool)
    ensures (forall x | x in xs :: p(x)) ==> Filter(xs, p) == xs
    ensures (forall x | x in xs :: !p(x)) ==> Filter(xs, p) == []
  {
    if |xs| > 0 {
      FilterAll(xs[1..], p);
      assert xs[0] in xs;
      assert forall x | x in xs[1..] :: x in xs;
      assert xs == [xs[0]] + xs[1..];
    }
  }

  // ---------------------------------------------------------------------------
  // Search
  // ---------------------------------------------------------------------------

  /** Some keyword contains the (already lower-case) query; keywords are
      compared as written. */
  predicate KeywordHit(keywords: seq<string>, lowerQuery: string) {
    exists k | k in keywords :: Contains(k, lowerQuery)
  }

  /** Any of the three tiers accepts the component. */
  predicate Matches(d: ComponentDefinition, lowerQuery: string) {
    || Contains(Lower(d.name), lowerQuery)
    || KeywordHit(d.keywords, lowerQuery)
    || Contains(Lower(d.description), lowerQuery)
  }

  /** The loop of `searchComponents` over `defs`: a component goes in on its
      name, else on a keyword, else on its description, and at most once. */
  function SearchIn(defs: seq<ComponentDefinition>, lowerQuery: string): (r: seq<ComponentDefinition>)
    ensures forall d | d in r :: d in defs && Matches(d, lowerQuery)
    ensures forall d | d in defs && Matches(d, lowerQuery) :: d in r
  {
    if |defs| == 0 then []
    else
      var d := defs[0];
      var rest := SearchIn(defs[1..], lowerQuery);
      assert defs == [d] + defs[1..];
      if Contains(Lower(d.name), lowerQuery) then [d] + rest
      else if KeywordHit(d.keywords, lowerQuery) then [d] + rest
      else if Contains(Lower(d.description), lowerQuery) then [d] + rest
      else rest
  }

  /** The three-tier loop is an order-preserving filter by `Matches`. */
  lemma {:induction false} SearchIsFilter(defs: seq<ComponentDefinition>, lowerQuery: string)
    ensures SearchIn(defs, lowerQuery) == Filter(defs, (d: ComponentDefinition) => Matches(d, lowerQuery))
  {
    if |defs| > 0 {
      SearchIsFilter(defs[1..], lowerQuery);
    }
  }

  /** `searchComponents`. */
  function SearchComponents(query: string): seq<ComponentDefinition> {
    SearchIn(GetAllComponents(), Lower(query))
  }

  /** The catalog's definitions are pairwise different (their names are). */
  lemma CatalogDistinct()
    ensures Distinct(GetAllComponents())
  {
    AllComponentsFields();
    NamesOfCatalogDistinct();
    NamesDistinct(GetAllComponents(), CatalogNames);
  }

  lemma NamesOfCatalogDistinct()
    ensures Distinct(CatalogNames)
  {
  }

  /** Definitions whose names are pairwise different are pairwise different. */
  lemma NamesDistinct(defs: seq<ComponentDefinition>, names: seq<string>)
    requires |defs| == |names| && Distinct(names)
    requires forall i | 0 <= i < |defs| :: defs[i].name == names[i]
    ensures Distinct(defs)
  {
    forall i, j | 0 <= i < j < |defs| ensures defs[i] != defs[j] {
      assert names[i] != names[j];
    }
  }

  /** A component is found iff the lower-cased query occurs in its
      lower-cased name, in one of its keywords or in its lower-cased
      description; results keep catalog order, each component at most
      once. */
  lemma SearchComponentsSpec(query: string)
    ensures forall d | d in GetAllComponents() ::
      d in SearchComponents(query) <==> Matches(d, Lower(query))
    ensures forall d | d in SearchComponents(query) :: d in GetAllComponents()
    ensures Embeds(SearchComponents(query), GetAllComponents())
    ensures Distinct(SearchComponents(query))
  {
    var all := GetAllComponents();
    SearchIsFilter(all, Lower(query));
    CatalogDistinct();
    EmbedsDistinct(SearchComponents(query), all);
  }

  /** The empty query matches every component. */
  lemma {:induction false} EmptyQueryFindsAll(defs: seq<ComponentDefinition>)
    ensures SearchIn(defs, "") == defs
  {
    if |defs| > 0 {
      EmptyQueryFindsAll(defs[1..]);
      assert IsPrefix("", Lower(defs[0].name));
    }
  }

  // ---------------------------------------------------------------------------
  // Variants
  // ---------------------------------------------------------------------------

  /** Three variants each for button, input, card and modal; four for alert. */
  lemma VariantCounts()
    ensures |ButtonDefinition.variants| == 3 && |InputDefinition.variants| == 3
    ensures |CardDefinition.variants| == 3 && |ModalDefinition.variants| == 3
    ensures |AlertDefinition.variants| == 4
  {
  }
}

=== FILE: parser.dfy ===
/** The natural-language intent parser (`NaturalLanguageParser`,
    src/generators/parser.ts). A description is lower-cased and trimmed and
    then searched, as raw text without any tokenisation, for the keywords of
    four constant tables. */
module Parser {
  import opened Wrappers
  import opened Strings
  import opened Seqs
  import opened Types

  // ---------------------------------------------------------------------------
  // Keyword tables, in the source's insertion order
  // ---------------------------------------------------------------------------

  type Word = w: string | |w| > 0 witness "x"

  type Kinds = ks: seq<Kind> | |ks| > 0 witness [Button]

  /** A component keyword and the kinds it suggests; the first one is used. */
  datatype KindKeyword = KindKeyword(keyword: Word, kinds: Kinds)

  /** A keyword and the value it selects. */
  datatype Keyword<T> = Keyword(keyword: Word, value: T)

  const ComponentKeywords: seq<KindKeyword> := [
    KindKeyword("button", [Button]),
    KindKeyword("btn", [Button]),
    KindKeyword("input", [Input]),
    KindKeyword("form", [Input, ContactForm]),
    KindKeyword("textbox", [Input]),
    KindKeyword("field", [Input]),
    KindKeyword("card", [Card]),
    KindKeyword("panel", [Card]),
    KindKeyword("modal", [Modal]),
    KindKeyword("dialog", [Modal]),
    KindKeyword("popup", [Modal]),
    KindKeyword("overlay", [Modal]),
    KindKeyword("alert", [Alert]),
    KindKeyword("notification", [Alert]),
    KindKeyword("message", [Alert]),
    KindKeyword("toast", [Alert]),
    KindKeyword("pricing", [PricingTable]),
    KindKeyword("price", [PricingTable]),
    KindKeyword("subscription", [PricingTable]),
    KindKeyword("plan", [PricingTable]),
    KindKeyword("tier", [PricingTable]),
    KindKeyword("contact", [ContactForm]),
    KindKeyword("navigation", [Navigation]),
    KindKeyword("nav", [Navigation]),
    KindKeyword("navbar", [Navigation]),
    KindKeyword("menu", [Navigation]),
    KindKeyword("sidebar", [Navigation]),
    KindKeyword("hero", [Hero]),
    KindKeyword("banner", [Hero]),
    KindKeyword("header", [Hero]),
    KindKeyword("landing", [Hero]),
    KindKeyword("table", [DataTable]),
    KindKeyword("grid", [DataTable]),
    KindKeyword("list", [DataTable]),
    KindKeyword("data", [DataTable])
  ]

  const FrameworkKeywords: seq<Keyword<Framework>> := [
    Keyword("react", React),
    Keyword("vue", Vue),
    Keyword("svelte", Svelte),
    Keyword("next", React),
    Keyword("nuxt", Vue),
    Keyword("sveltekit", Svelte)
  ]

  const StylingKeywords: seq<Keyword<Styling>> := [
    Keyword("tailwind", Tailwind),
    Keyword("css", Css),
    Keyword("styled-components", StyledComponents),
    Keyword("styled", StyledComponents),
    Keyword("emotion", Emotion)
  ]

  const FeatureKeywords: seq<Keyword<seq<string>>> := [
    Keyword("responsive", ["responsive"]),
    Keyword("mobile", ["responsive"]),
    Keyword("accessible", ["accessibility"]),
    Keyword("a11y", ["accessibility"]),
    Keyword("dark", ["dark-mode"]),
    Keyword("theme", ["theming"]),
    Keyword("animated", ["animation"]),
    Keyword("loading", ["loading-state"]),
    Keyword("spinner", ["loading-state"]),
    Keyword("validation", ["form-validation"]),
    Keyword("error", ["error-handling"]),
    Keyword("success", ["success-state"]),
    Keyword("disabled", ["disabled-state"]),
    Keyword("hover", ["hover-effects"]),
    Keyword("focus", ["focus-states"]),
    Keyword("gradient", ["gradient-background"]),
    Keyword("shadow", ["drop-shadow"]),
    Keyword("rounded", ["rounded-corners"]),
    Keyword("border", ["border-styles"])
  ]

  const Colors: seq<Word> := ["blue", "red", "green", "yellow", "purple", "pink", "gray", "black", "white"]

  const Sizes: seq<Word> := ["small", "medium", "large", "xl", "xs", "sm", "lg"]

  const Styles: seq<Word> := ["minimal", "modern", "classic", "elegant"]

  // ---------------------------------------------------------------------------
  // Normalisation
  // ---------------------------------------------------------------------------

  /** `description.toLowerCase().trim()`: the text every extractor of `parse`
      searches; it holds no upper-case letter, so matching is insensitive to
      case. */
  function Normalize(description: string): (n: string)
    ensures |n| <= |description|
    ensures forall i | 0 <= i < |n| :: !IsUpper(n[i])
    ensures |n| > 0 ==> !IsSpace(n[0]) && !IsSpace(n[|n| - 1])
  {
    var low := Lower(description);
    TrimKeepsCharacters(low);
    Trim(low)
  }

  /** Trimming does not change which words without white space occur, so the
      keyword tests may read the lower-cased description instead. */
  lemma NormalizeKeepsWord(description: string, q: string)
    requires |q| > 0 && NoSpace(q)
    ensures Contains(Normalize(description), q) <==> Contains(Lower(description), q)
  {
    TrimKeepsWord(Lower(description), q);
  }

  /** Whether both words of a composite override occur reads the same on the
      lower-cased and on the normalized description. */
  lemma NormalizeKeepsBoth(description: string, a: string, b: string)
    requires |a| > 0 && NoSpace(a) && |b| > 0 && NoSpace(b)
    ensures Both(Normalize(description), a, b) <==> Both(Lower(description), a, b)
  {
    NormalizeKeepsWord(description, a);
    NormalizeKeepsWord(description, b);
  }

  /** The pricing-table override, read on the lower-cased description. */
  lemma PricingTableWords(description: string)
    ensures Both(Normalize(description), "pricing", "table")
        <==> Both(Lower(description), "pricing", "table")
  {
    NormalizeKeepsBoth(description, "pricing", "table");
  }

  // ---------------------------------------------------------------------------
  // Component kind
  // ---------------------------------------------------------------------------

  /** `description.split(keyword).length - 1` for the `k`-th entry of `t`. */
  function Hits(d: string, t: seq<KindKeyword>, k: nat): nat
    requires k < |t|
  {
    Count(d, t[k].keyword)
  }

  /** The loop state of `extractComponentType`: the best kind so far and its
      occurrence count. */
  datatype Best = Best(kind: Kind, max: nat)

  /** The loop of `extractComponentType` run over the first `n` entries of
      `t`: an entry replaces the best so far only with a strictly larger
      count, and its first kind is taken. */
  function ScanKinds(d: string, t: seq<KindKeyword>, n: nat): (b: Best)
    requires n <= |t|
    ensures forall k | 0 <= k < n :: Hits(d, t, k) <= b.max
    ensures b.max == 0 ==> b.kind == Button
    ensures b.max > 0 ==> exists j | 0 <= j < n ::
      Hits(d, t, j) == b.max && b.kind == t[j].kinds[0] && forall i | 0 <= i < j :: Hits(d, t, i) < b.max
  {
    if n == 0 then Best(Button, 0)
    else
      var b := ScanKinds(d, t, n - 1);
      var e := t[n - 1];
      if Contains(d, e.keyword) then
        var matches := Count(d, e.keyword);
        if matches > b.max then
          assert Hits(d, t, n - 1) == matches;
          Best(e.kinds[0], matches)
        else b
      else b
  }

  /** Entry `j` has a positive count, larger than every earlier entry's and at
      least every later entry's: the first entry with the greatest count. */
  predicate FirstMaximum(d: string, t: seq<KindKeyword>, j: nat)
    requires j < |t|
  {
    && Hits(d, t, j) > 0
    && (forall i | 0 <= i < j :: Hits(d, t, i) < Hits(d, t, j))
    && (forall i | j < i < |t| :: Hits(d, t, i) <= Hits(d, t, j))
  }

  /** The loop picks the first kind of the first entry with the greatest
      count; ties go to the earlier entry. */
  lemma ScanFindsFirstMaximum(d: string, t: seq<KindKeyword>, j: nat)
    requires j < |t| && FirstMaximum(d, t, j)
    ensures ScanKinds(d, t, |t|).kind == t[j].kinds[0]
  {
    var b := ScanKinds(d, t, |t|);
    assert b.max >= Hits(d, t, j) > 0;
    var w :| 0 <= w < |t| && Hits(d, t, w) == b.max && b.kind == t[w].kinds[0]
      && forall i | 0 <= i < w :: Hits(d, t, i) < b.max;
    assert w == j;
  }

  /** Conversely, a winner with a positive count is a first maximum. */
  lemma ScanWinnerIsFirstMaximum(d: string, t: seq<KindKeyword>)
    requires ScanKinds(d, t, |t|).max > 0
    ensures exists j | 0 <= j < |t| :: FirstMaximum(d, t, j) && ScanKinds(d, t, |t|).kind == t[j].kinds[0]
  {
    var b := ScanKinds(d, t, |t|);
    var w :| 0 <= w < |t| && Hits(d, t, w) == b.max && b.kind == t[w].kinds[0]
      && forall i | 0 <= i < w :: Hits(d, t, i) < b.max;
    assert FirstMaximum(d, t, w);
  }

  /** When no keyword of `t` occurs, the loop keeps its `button` default. */
  lemma ScanDefault(d: string, t: seq<KindKeyword>)
    requires forall k | 0 <= k < |t| :: !Contains(d, t[k].keyword)
    ensures ScanKinds(d, t, |t|).kind == Button
  {
    assert forall k | 0 <= k < |t| :: Hits(d, t, k) == 0;
  }

  /** Both override keywords of a composite kind occur. */
  predicate Both(d: string, a: string, b: string) {
    Contains(d, a) && Contains(d, b)
  }

  /** None of the three composite overrides applies. */
  predicate NoOverride(d: string) {
    !Both(d, "pricing", "table") && !Both(d, "contact", "form") && !Both(d, "data", "table")
  }

  /** `extractComponentType`: the loop's winner unless a composite override
      applies; the overrides are tried in the order pricing table, contact
      form, data table, whatever the counts. */
  function ExtractComponentType(d: string): (k: Kind)
    ensures Both(d, "pricing", "table") ==> k == PricingTable
    ensures !Both(d, "pricing", "table") && Both(d, "contact", "form") ==> k == ContactForm
    ensures !Both(d, "pricing", "table") && !Both(d, "contact", "form") && Both(d, "data", "table")
      ==> k == DataTable
  {
    var best := ScanKinds(d, ComponentKeywords, |ComponentKeywords|).kind;
    if Contains(d, "pricing") && Contains(d, "table") then PricingTable
    else if Contains(d, "contact") && Contains(d, "form") then ContactForm
    else if Contains(d, "data") && Contains(d, "table") then DataTable
    else best
  }

  /** Without an override, the kind is the first kind of the first entry with
      the greatest count. */
  lemma ComponentTypeIsFirstMaximum(d: string, j: nat)
    requires j < |ComponentKeywords| && FirstMaximum(d, ComponentKeywords, j) && NoOverride(d)
    ensures ExtractComponentType(d) == ComponentKeywords[j].kinds[0]
  {
    ScanFindsFirstMaximum(d, ComponentKeywords, j);
  }

  /** Without any component keyword the kind falls back to `button`. */
  lemma ComponentTypeDefault(d: string)
    requires forall k | 0 <= k < |ComponentKeywords| :: !Contains(d, ComponentKeywords[k].keyword)
    ensures ExtractComponentType(d) == Button
  {
    ScanDefault(d, ComponentKeywords);
    assert !Contains(d, ComponentKeywords[16].keyword);
    assert !Contains(d, ComponentKeywords[21].keyword);
    assert !Contains(d, ComponentKeywords[34].keyword);
  }

  // ---------------------------------------------------------------------------
  // Framework and styling: the first table entry found
  // ---------------------------------------------------------------------------

  /** Index of the first entry of `table` whose keyword occurs in `d`. */
  function FirstFound<T>(d: string, table: seq<Keyword<T>>): (r: Option<nat>)
    ensures r.Some? ==> r.value < |table| && Contains(d, table[r.value].keyword)
    ensures r.Some? ==> forall j | 0 <= j < r.value :: !Contains(d, table[j].keyword)
    ensures r.None? <==> forall j | 0 <= j < |table| :: !Contains(d, table[j].keyword)
  {
    var p := (k: nat) => k < |table| && Contains(d, table[k].keyword);
    var r := Leftmost(0, |table|, p);
    var bound := if r.Some? then r.value else |table|;
    assert forall j | 0 <= j < bound :: !Contains(d, table[j].keyword) by {
      forall j | 0 <= j < bound ensures !Contains(d, table[j].keyword) {
        assert !p(j);
      }
    }
    r
  }

  /** The value of the first entry, in table order rather than text order,
      whose keyword occurs. */
  function Lookup<T>(d: string, table: seq<Keyword<T>>): (r: Option<T>)
    ensures r.None? <==> forall j | 0 <= j < |table| :: !Contains(d, table[j].keyword)
    ensures r.Some? ==> exists k | 0 <= k < |table| ::
      Contains(d, table[k].keyword) && r.value == table[k].value
      && forall j | 0 <= j < k :: !Contains(d, table[j].keyword)
  {
    match FirstFound(d, table)
    case None => None
    case Some(k) => Some(table[k].value)
  }

  /** Whenever entry `k` is the first one found, its value is the result. */
  lemma LookupFirst<T>(d: string, table: seq<Keyword<T>>, k: nat)
    requires k < |table| && Contains(d, table[k].keyword)
    requires forall j | 0 <= j < k :: !Contains(d, table[j].keyword)
    ensures Lookup(d, table) == Some(table[k].value)
  {
    var r := FirstFound(d, table);
    assert r.Some?;
    assert !(r.value < k) && !(k < r.value);
  }

  /** `extractFramework`. */
  function ExtractFramework(d: string): Option<Framework> {
    Lookup(d, FrameworkKeywords)
  }

  /** `extractStyling`. */
  function ExtractStyling(d: string): Option<Styling> {
    Lookup(d, StylingKeywords)
  }

  // ---------------------------------------------------------------------------
  // Features
  // ---------------------------------------------------------------------------

  /** Entry `k` of `t` occurs in `d` and contributes tag `f`. */
  predicate Contributes(d: string, t: seq<Keyword<seq<string>>>, k: nat, f: string) {
    k < |t| && Contains(d, t[k].keyword) && f in t[k].value
  }

  /** The list the loop of `extractFeatures` pushes to, after the first `n`
      entries of `t`, before duplicates are removed. */
  function CollectFeatures(d: string, t: seq<Keyword<seq<string>>>, n: nat): (r: seq<string>)
    requires n <= |t|
    ensures forall f | f in r :: exists k | 0 <= k < n :: Contributes(d, t, k, f)
    ensures forall k, f | 0 <= k < n && Contributes(d, t, k, f) :: f in r
  {
    if n == 0 then []
    else
      var e := t[n - 1];
      var front := CollectFeatures(d, t, n - 1);
      var added := if Contains(d, e.keyword) then e.value else [];
      assert forall f | f in added :: Contributes(d, t, n - 1, f);
      front + added
  }

  /** The tags of every entry found, without duplicates. */
  function Features(d: string, t: seq<Keyword<seq<string>>>): (r: seq<string>)
    ensures Distinct(r)
    ensures forall f | f in r :: exists k | 0 <= k < |t| :: Contributes(d, t, k, f)
    ensures forall k, f | 0 <= k < |t| && Contributes(d, t, k, f) :: f in r
  {
    Dedup(CollectFeatures(d, t, |t|))
  }

  /** Each tag is listed where it was first contributed. */
  lemma FeaturesInFirstContributionOrder(d: string, t: seq<Keyword<seq<string>>>)
    ensures Features(d, t) == Firsts(CollectFeatures(d, t, |t|))
  {
    DedupIsFirsts(CollectFeatures(d, t, |t|));
  }

  /** `extractFeatures`. */
  function ExtractFeatures(d: string): seq<string> {
    Features(d, FeatureKeywords)
  }

  /** "loading" and "spinner" both contribute `loading-state`, which is listed
      once. */
  lemma LoadingStateOnce(d: string)
    requires Contains(d, "loading") || Contains(d, "spinner")
    ensures multiset(ExtractFeatures(d))["loading-state"] == 1
  {
    if Contains(d, "loading") {
      assert Contributes(d, FeatureKeywords, 7, "loading-state");
    } else {
      assert Contributes(d, FeatureKeywords, 8, "loading-state");
    }
    DistinctOnce(ExtractFeatures(d), "loading-state");
  }

  // ---------------------------------------------------------------------------
  // Constraints
  // ---------------------------------------------------------------------------

  /** The words of `words` that occur in `d`, in list order. */
  function Found(d: string, words: seq<Word>): seq<Word> {
    Filter(words, (w: Word) => Contains(d, w))
  }

  /** `category:w` for every word `w` of `ws`, in order. */
  function Tags(category: string, ws: seq<Word>): (r: seq<string>)
    ensures |r| == |ws|
    ensures forall k | 0 <= k < |ws| :: r[k] == category + ":" + ws[k]
  {
    if |ws| == 0 then [] else [category + ":" + ws[0]] + Tags(category, ws[1..])
  }

  /** `category:w` for each word `w` of `words` found in `d`, in list order. */
  function Tagged(d: string, category: string, words: seq<Word>): (r: seq<string>)
    ensures |r| <= |words|
    ensures forall w | w in words && Contains(d, w) :: category + ":" + w in r
    ensures forall x | x in r ::
      IsPrefix(category + ":", x) && x[|category| + 1..] in words && Contains(d, x[|category| + 1..])
  {
    if |words| == 0 then []
    else
      var w := words[0];
      var here := if Contains(d, w) then [category + ":" + w] else [];
      assert (category + ":" + w)[|category| + 1..] == w;
      assert words == [w] + words[1..];
      here + Tagged(d, category, words[1..])
  }

  /** The tags come in list order: exactly the found words, each tagged. */
  lemma {:induction false} TaggedInOrder(d: string, category: string, words: seq<Word>)
    ensures Tagged(d, category, words) == Tags(category, Found(d, words))
  {
    if |words| > 0 {
      TaggedInOrder(d, category, words[1..]);
      var w := words[0];
      assert ([w] + Found(d, words[1..]))[1..] == Found(d, words[1..]);
    }
  }

  /** The group of a constraint by its prefix, in emission order. */
  function Rank(x: string): nat {
    if IsPrefix("color:", x) then 0 else if IsPrefix("size:", x) then 1 else 2
  }

  predicate RankSorted(r: seq<string>) {
    forall i, j | 0 <= i < j < |r| :: Rank(r[i]) <= Rank(r[j])
  }

  lemma RankOfPrefix(x: string)
    ensures IsPrefix("color:", x) ==> Rank(x) == 0
    ensures IsPrefix("size:", x) ==> Rank(x) == 1
    ensures IsPrefix("style:", x) ==> Rank(x) == 2
  {
    if IsPrefix("size:", x) {
      assert x[0] == x[..5][0];
    }
    if IsPrefix("style:", x) {
      assert x[0] == x[..6][0] && x[1] == x[..6][1];
    }
  }

  /** Three groups of ranks 0, 1 and 2, laid end to end, are in rank order. */
  lemma GroupsSorted(c: seq<string>, s: seq<string>, t: seq<string>)
    requires forall x | x in c :: Rank(x) == 0
    requires forall x | x in s :: Rank(x) == 1
    requires forall x | x in t :: Rank(x) == 2
    ensures RankSorted(c + s + t)
  {
    var r := c + s + t;
    forall i | 0 <= i < |r|
      ensures Rank(r[i]) == if i < |c| then 0 else if i < |c| + |s| then 1 else 2
    {
      if i < |c| {
        assert r[i] == c[i];
      } else if i < |c| + |s| {
        assert r[i] == s[i - |c|];
      } else {
        assert r[i] == t[i - |c| - |s|];
      }
    }
  }

  /** One group of constraints: every found word tagged with `prefix`, and
      nothing but tags of found words. */
  predicate Group(d: string, prefix: string, words: seq<Word>, g: seq<string>) {
    && (forall w | w in words && Contains(d, w) :: prefix + w in g)
    && (forall x | x in g :: IsPrefix(prefix, x) && x[|prefix|..] in words && Contains(d, x[|prefix|..]))
  }

  lemma TaggedGroup(d: string, category: string, words: seq<Word>, prefix: string)
    requires prefix == category + ":"
    ensures Group(d, prefix, words, Tagged(d, category, words))
  {
  }

  /** Three groups, concatenated: each found word tagged once, nothing else,
      and the groups in rank order. */
  lemma GroupsJoin(d: string, colors: seq<Word>, sizes: seq<Word>, styles: seq<Word>,
                   c: seq<string>, s: seq<string>, t: seq<string>)
    requires Group(d, "color:", colors, c)
    requires Group(d, "size:", sizes, s)
    requires Group(d, "style:", styles, t)
    ensures forall w | w in colors && Contains(d, w) :: "color:" + w in c + s + t
    ensures forall w | w in sizes && Contains(d, w) :: "size:" + w in c + s + t
    ensures forall w | w in styles && Contains(d, w) :: "style:" + w in c + s + t
    ensures forall x | x in c + s + t ::
      || (IsPrefix("color:", x) && x[6..] in colors && Contains(d, x[6..]))
      || (IsPrefix("size:", x) && x[5..] in sizes && Contains(d, x[5..]))
      || (IsPrefix("style:", x) && x[6..] in styles && Contains(d, x[6..]))
    ensures RankSorted(c + s + t)
  {
    forall x | x in c ensures Rank(x) == 0 {
      RankOfPrefix(x);
    }
    forall x | x in s ensures Rank(x) == 1 {
      RankOfPrefix(x);
    }
    forall x | x in t ensures Rank(x) == 2 {
      RankOfPrefix(x);
    }
    GroupsSorted(c, s, t);
  }

  /** Colours found, then sizes found, then style words found, each group in
      list order. */
  function Constraints(d: string, colors: seq<Word>, sizes: seq<Word>, styles: seq<Word>): (r: seq<string>)
    ensures forall w | w in colors && Contains(d, w) :: "color:" + w in r
    ensures forall w | w in sizes && Contains(d, w) :: "size:" + w in r
    ensures forall w | w in styles && Contains(d, w) :: "style:" + w in r
    ensures forall x | x in r ::
      || (IsPrefix("color:", x) && x[6..] in colors && Contains(d, x[6..]))
      || (IsPrefix("size:", x) && x[5..] in sizes && Contains(d, x[5..]))
      || (IsPrefix("style:", x) && x[6..] in styles && Contains(d, x[6..]))
    ensures RankSorted(r)
  {
    var c := Tagged(d, "color", colors);
    var s := Tagged(d, "size", sizes);
    var t := Tagged(d, "style", styles);
    TaggedGroup(d, "color", colors, "color:");
    TaggedGroup(d, "size", sizes, "size:");
    TaggedGroup(d, "style", styles, "style:");
    GroupsJoin(d, colors, sizes, styles, c, s, t);
    c + s + t
  }

  /** Colours in list order, then sizes, then style words. */
  lemma ConstraintsInOrder(d: string, colors: seq<Word>, sizes: seq<Word>, styles: seq<Word>)
    ensures Constraints(d, colors, sizes, styles)
      == Tags("color", Found(d, colors)) + Tags("size", Found(d, sizes)) + Tags("style", Found(d, styles))
  {
    TaggedInOrder(d, "color", colors);
    TaggedInOrder(d, "size", sizes);
    TaggedInOrder(d, "style", styles);
  }

  /** `extractConstraints`. */
  function ExtractConstraints(d: string): seq<string> {
    Constraints(d, Colors, Sizes, Styles)
  }

  /** The first constraint names the first colour of the list found in the
      text, whatever order the text mentions the colours in: "a red and blue
      button" leads with `color:blue`. */
  lemma FirstColorLeads(d: string, j: nat)
    requires j < |Colors| && Contains(d, Colors[j])
    requires forall k | 0 <= k < j :: !Contains(d, Colors[k])
    ensures |ExtractConstraints(d)| > 0 && ExtractConstraints(d)[0] == "color:" + Colors[j]
  {
    ConstraintsInOrder(d, Colors, Sizes, Styles);
    FilterFirst(Colors, (w: Word) => Contains(d, w), j);
  }

  /** Substring semantics: "small" contains "sm", so it yields both sizes. */
  lemma SmallYieldsTwoSizes(d: string)
    requires Contains(d, "small")
    ensures "size:small" in ExtractConstraints(d) && "size:sm" in ExtractConstraints(d)
  {
    assert IsPrefix("sm", "small");
    ContainsTransitive(d, "small", "sm");
    assert Sizes[0] == "small" && Sizes[5] == "sm";
    assert "size:" + "small" == "size:small" && "size:" + "sm" == "size:sm";
  }

  // ---------------------------------------------------------------------------
  // Confidence
  // ---------------------------------------------------------------------------

  /** The entries of `t` whose keyword occurs in `d`: the `filter` of
      `calculateConfidence`. */
  function FoundKeywords(d: string, t: seq<KindKeyword>): seq<KindKeyword> {
    Filter(t, (e: KindKeyword) => Contains(d, e.keyword))
  }

  /** How many of the first `n` keywords of `t` occur in `d`. */
  function MatchedKeywords(d: string, t: seq<KindKeyword>, n: nat): (m: nat)
    requires n <= |t|
    ensures m <= n
    ensures m == 0 <==> forall k | 0 <= k < n :: !Contains(d, t[k].keyword)
  {
    if n == 0 then 0
    else MatchedKeywords(d, t, n - 1) + if Contains(d, t[n - 1].keyword) then 1 else 0
  }

  /** The count is the length of the filtered prefix. */
  lemma {:induction false} MatchedCount(d: string, t: seq<KindKeyword>, n: nat)
    requires n <= |t|
    ensures MatchedKeywords(d, t, n) == |FoundKeywords(d, t[..n])|
  {
    if n == 0 {
      assert t[..0] == [];
    } else {
      MatchedCount(d, t, n - 1);
      assert t[..n] == t[..n - 1] + [t[n - 1]];
      FilterSnoc(t[..n - 1], t[n - 1], (e: KindKeyword) => Contains(d, e.keyword));
    }
  }

  /** Over the whole table the count is the length of the filter. */
  lemma MatchedAll(d: string, t: seq<KindKeyword>)
    ensures MatchedKeywords(d, t, |t|) == |FoundKeywords(d, t)|
  {
    MatchedCount(d, t, |t|);
    assert t[..|t|] == t;
  }

  /** A text in which every keyword of the first `n` that occurs in `d1` also
      occurs matches at least as many keywords. */
  lemma {:induction false} MatchedMonotone(d1: string, d2: string, t: seq<KindKeyword>, n: nat)
    requires n <= |t|
    requires forall k | 0 <= k < n :: Contains(d1, t[k].keyword) ==> Contains(d2, t[k].keyword)
    ensures MatchedKeywords(d1, t, n) <= MatchedKeywords(d2, t, n)
  {
    if n > 0 {
      MatchedMonotone(d1, d2, t, n - 1);
    }
  }

  /** Exactly one keyword found counts one. */
  lemma {:induction false} MatchedOne(d: string, t: seq<KindKeyword>, n: nat, j: nat)
    requires j < n <= |t| && Contains(d, t[j].keyword)
    requires forall k | 0 <= k < n && k != j :: !Contains(d, t[k].keyword)
    ensures MatchedKeywords(d, t, n) == 1
  {
    if j < n - 1 {
      MatchedOne(d, t, n - 1, j);
    } else {
      assert MatchedKeywords(d, t, n - 1) == 0;
    }
  }

  function Min(a: real, b: real): real {
    if a <= b then a else b
  }

  /** The score before the cap: a base of one half, a tenth per matched
      component keyword, a twentieth per feature, and the composite bonuses. */
  function Score(keywords: nat, features: nat, bonus: real): real {
    0.5 + keywords as real * 0.1 + features as real * 0.05 + bonus
  }

  /** The bonus for a composite kind whose two keywords both occur. */
  function Bonus(d: string, kind: Kind): real {
    (if kind == PricingTable && Contains(d, "pricing") && Contains(d, "table") then 0.2 else 0.0)
    + (if kind == ContactForm && Contains(d, "contact") && Contains(d, "form") then 0.2 else 0.0)
  }

  /** `calculateConfidence`: the score capped at one. */
  function CalculateConfidence(d: string, kind: Kind, features: seq<string>): (c: real)
    ensures 0.5 <= c <= 1.0
    ensures c == 0.5 <==> MatchedKeywords(d, ComponentKeywords, |ComponentKeywords|) == 0 && |features| == 0
  {
    var m := MatchedKeywords(d, ComponentKeywords, |ComponentKeywords|);
    assert Bonus(d, kind) > 0.0 ==> m > 0 by {
      assert ComponentKeywords[16].keyword == "pricing";
      assert ComponentKeywords[21].keyword == "contact";
    }
    Min(Score(m, |features|, Bonus(d, kind)), 1.0)
  }

  /** The confidence is one half, plus a tenth for every component keyword
      the text contains, a twentieth for every feature and the composite
      bonus, capped at one. */
  lemma ConfidenceFormula(d: string, kind: Kind, features: seq<string>)
    ensures CalculateConfidence(d, kind, features)
      == Min(0.5 + |FoundKeywords(d, ComponentKeywords)| as real * 0.1 + |features| as real * 0.05 + Bonus(d, kind), 1.0)
  {
    MatchedAll(d, ComponentKeywords);
  }

  /** One component keyword and one feature, with no composite bonus, score
      0.65: below the 0.7 that a description such as "create a blue button
      with hover effects" (keyword `button`, feature `hover`) is expected to
      exceed in tests/parser.test.ts. */
  lemma OneKeywordOneFeature(d: string, kind: Kind, features: seq<string>, j: nat)
    requires j < |ComponentKeywords| && Contains(d, ComponentKeywords[j].keyword)
    requires forall k | 0 <= k < |ComponentKeywords| && k != j :: !Contains(d, ComponentKeywords[k].keyword)
    requires |features| == 1 && kind != PricingTable && kind != ContactForm
    ensures CalculateConfidence(d, kind, features) == 0.65
  {
    MatchedOne(d, ComponentKeywords, |ComponentKeywords|, j);
  }

  /** More matched keywords, more features or a larger bonus never lower the
      capped score, which never drops below one half. */
  lemma ConfidenceMonotone(m1: nat, f1: nat, b1: real, m2: nat, f2: nat, b2: real)
    requires m1 <= m2 && f1 <= f2 && 0.0 <= b1 <= b2
    ensures Min(Score(m1, f1, b1), 1.0) <= Min(Score(m2, f2, b2), 1.0)
    ensures 0.5 <= Min(Score(m1, f1, b1), 1.0)
  {
  }

  /** More features never lower the confidence. */
  lemma ConfidenceMoreFeatures(d: string, kind: Kind, f1: seq<string>, f2: seq<string>)
    requires |f1| <= |f2|
    ensures CalculateConfidence(d, kind, f1) <= CalculateConfidence(d, kind, f2)
  {
    var m := MatchedKeywords(d, ComponentKeywords, |ComponentKeywords|);
    ConfidenceMonotone(m, |f1|, Bonus(d, kind), m, |f2|, Bonus(d, kind));
  }

  lemma BonusMonotone(d1: string, d2: string, kind: Kind)
    requires forall w: string | Contains(d1, w) :: Contains(d2, w)
    ensures Bonus(d1, kind) <= Bonus(d2, kind)
  {
  }

  /** A text that contains every word `d1` contains is at least as
      confident: it matches every keyword and earns every bonus `d1` does.
      Appending words to a description, for one, never lowers the score. */
  lemma ConfidenceMoreText(d1: string, d2: string, kind: Kind, features: seq<string>)
    requires forall w: string | Contains(d1, w) :: Contains(d2, w)
    ensures CalculateConfidence(d1, kind, features) <= CalculateConfidence(d2, kind, features)
  {
    var m1 := MatchedKeywords(d1, ComponentKeywords, |ComponentKeywords|);
    var m2 := MatchedKeywords(d2, ComponentKeywords, |ComponentKeywords|);
    assert m1 <= m2 by {
      MatchedMonotone(d1, d2, ComponentKeywords, |ComponentKeywords|);
    }
    assert Bonus(d1, kind) <= Bonus(d2, kind) by {
      BonusMonotone(d1, d2, kind);
    }
    ConfidenceMonotone(m1, |features|, Bonus(d1, kind), m2, |features|, Bonus(d2, kind));
  }

  // ---------------------------------------------------------------------------
  // parse
  // ---------------------------------------------------------------------------

  /** `parse`: never fails; falls back to React and Tailwind. */
  function Parse(description: string): (r: ParsedIntent)
    ensures 0.5 <= r.confidence <= 1.0
    ensures Distinct(r.features)
    ensures Both(Normalize(description), "pricing", "table") ==> r.componentType == PricingTable
  {
    var d := Normalize(description);
    var kind := ExtractComponentType(d);
    var features := ExtractFeatures(d);
    ParsedIntent(
      kind,
      ExtractFramework(d).GetOr(React),
      ExtractStyling(d).GetOr(Tailwind),
      features,
      ExtractConstraints(d),
      CalculateConfidence(d, kind, features))
  }

  /** With no framework or styling keyword in the normalised text, `parse`
      answers React and Tailwind. */
  lemma ParseDefaults(description: string)
    requires forall j | 0 <= j < |FrameworkKeywords| :: !Contains(Normalize(description), FrameworkKeywords[j].keyword)
    requires forall j | 0 <= j < |StylingKeywords| :: !Contains(Normalize(description), StylingKeywords[j].keyword)
    ensures Parse(description).framework == React && Parse(description).styling == Tailwind
  {
  }

  // ---------------------------------------------------------------------------
  // Utilities
  // ---------------------------------------------------------------------------

  /** A hint and the words that call for it. */
  datatype HintRule = HintRule(words: seq<Word>, hint: string)

  const HintRules: seq<HintRule> := [
    HintRule(["simple", "basic"], "basic"),
    HintRule(["advanced", "complex"], "advanced"),
    HintRule(["minimal"], "minimal"),
    HintRule(["full", "complete"], "complete")
  ]

  predicate RuleFires(d: string, k: nat)
    requires k < |HintRules|
  {
    exists w | w in HintRules[k].words :: Contains(d, w)
  }

  /** `extractVariantHint`: the hint of the first rule, in the order basic,
      advanced, minimal, complete, one of whose words occurs. */
  function ExtractVariantHint(d: string): (r: Option<string>)
    ensures r.None? <==> forall k | 0 <= k < |HintRules| :: !RuleFires(d, k)
    ensures r.Some? ==> exists k | 0 <= k < |HintRules| ::
      RuleFires(d, k) && r.value == HintRules[k].hint && forall j | 0 <= j < k :: !RuleFires(d, j)
  {
    var p := (k: nat) => k < |HintRules| && RuleFires(d, k);
    var i := Leftmost(0, |HintRules|, p);
    assert i.None? ==> forall k | 0 <= k < |HintRules| :: !RuleFires(d, k) by {
      if i.None? {
        forall k | 0 <= k < |HintRules| ensures !RuleFires(d, k) {
          assert !p(k);
        }
      }
    }
    assert i.Some? ==> forall j | 0 <= j < i.value :: !RuleFires(d, j) by {
      if i.Some? {
        forall j | 0 <= j < i.value ensures !RuleFires(d, j) {
          assert !p(j);
        }
      }
    }
    match i
    case None => None
    case Some(k) => Some(HintRules[k].hint)
  }

  /** "simple" or "basic" always wins. */
  lemma BasicHintFirst(d: string)
    requires Contains(d, "simple") || Contains(d, "basic")
    ensures ExtractVariantHint(d) == Some("basic")
  {
    assert RuleFires(d, 0) by {
      if Contains(d, "simple") {
        assert "simple" in HintRules[0].words;
      } else {
        assert "basic" in HintRules[0].words;
      }
    }
  }

  // --- extractQuantity: /(\d+)\s*(tier|column|row|item|button)/ -------------

  const Units: seq<Word> := ["tier", "column", "row", "item", "button"]

  /** The quantity pattern, with unit words `units`, matches at `i`: greedy
      digits, greedy white space, then a unit word. Giving back digits or
      spaces never helps, since a unit starts with a letter, so the greedy
      attempt decides the match. */
  predicate QuantityAt(s: string, units: seq<Word>, i: nat) {
    i < |s| && IsDigit(s[i]) && UnitAt(s, units, UnitStart(s, i))
  }

  /** Where a unit word must start after the digits and white space that
      follow `i`. */
  function UnitStart(s: string, i: nat): (f: nat)
    requires i <= |s|
    ensures i <= f <= |s|
  {
    RunEnd(s, RunEnd(s, i, IsDigit), IsSpace)
  }

  /** One of the unit words starts at `f`. */
  predicate UnitAt(s: string, units: seq<Word>, f: nat)
    requires f <= |s|
  {
    exists u | u in units :: IsPrefix(u, s[f..])
  }

  /** Where the leftmost match of the quantity pattern at or after `lo` starts. */
  function QuantityFrom(s: string, units: seq<Word>, lo: nat): (r: Option<nat>)
    requires lo <= |s|
    decreases |s| - lo
    ensures r.None? <==> forall i | lo <= i < |s| :: !QuantityAt(s, units, i)
    ensures r.Some? ==> lo <= r.value < |s| && QuantityAt(s, units, r.value)
    ensures r.Some? ==> forall j | lo <= j < r.value :: !QuantityAt(s, units, j)
  {
    if lo == |s| then None
    else if QuantityAt(s, units, lo) then Some(lo)
    else
      var r := QuantityFrom(s, units, lo + 1);
      assert r.Some? ==> forall j | lo <= j < r.value :: !QuantityAt(s, units, j) by {
        if r.Some? {
          forall j | lo <= j < r.value ensures !QuantityAt(s, units, j) {
            if j != lo {
              assert lo + 1 <= j < r.value;
            }
          }
        }
      }
      r
  }

  /** Where the leftmost match of the quantity pattern starts. */
  function QuantityStart(s: string, units: seq<Word>): Option<nat> {
    QuantityFrom(s, units, 0)
  }

  /** A match preceded by a digit extends one step to the left, so the
      leftmost match always starts a run of digits. */
  lemma MatchExtendsLeft(s: string, units: seq<Word>, i: nat)
    requires 0 < i < |s| && IsDigit(s[i - 1]) && QuantityAt(s, units, i)
    ensures QuantityAt(s, units, i - 1)
  {
    assert RunEnd(s, i - 1, IsDigit) == RunEnd(s, i, IsDigit);
  }

  /** A match anywhere inside a run of digits is also a match at the run's
      start, so the leftmost match reads a whole number, never a suffix of
      one. */
  lemma {:induction false} MatchExtendsToRunStart(s: string, units: seq<Word>, j: nat, i: nat)
    requires j <= i < |s|
    requires forall k | j <= k < i :: IsDigit(s[k])
    requires QuantityAt(s, units, i)
    ensures QuantityAt(s, units, j)
    decreases i - j
  {
    if j < i {
      MatchExtendsLeft(s, units, i);
      MatchExtendsToRunStart(s, units, j, i - 1);
    }
  }

  /** The number written just before the first unit word, in the pattern's
      list `units`; none when the pattern matches nowhere. */
  function Quantity(s: string, units: seq<Word>): (r: Option<nat>)
    ensures r.None? <==> forall i | 0 <= i < |s| :: !QuantityAt(s, units, i)
  {
    match QuantityStart(s, units)
    case None => None
    case Some(i) => Some(DecimalValue(s[i..RunEnd(s, i, IsDigit)]))
  }

  /** `extractQuantity`: the number before the first tier/column/row/item/button. */
  function ExtractQuantity(s: string): Option<nat> {
    Quantity(s, Units)
  }

  /** A match with no digit before it is the leftmost match, since every
      match starts on a digit; the quantity is the digit run there. */
  lemma QuantityAtFirstDigit(s: string, units: seq<Word>, i: nat)
    requires QuantityAt(s, units, i)
    requires forall j | 0 <= j < i :: !IsDigit(s[j])
    ensures Quantity(s, units) == Some(DecimalValue(s[i..RunEnd(s, i, IsDigit)]))
  {
    assert forall j | 0 <= j < i :: !QuantityAt(s, units, j);
  }

  /** One digit, a space, then "tier": the quantity is that digit, so
      "3 tiers" asks for three. */
  lemma DigitThenTier(s: string)
    requires 2 <= |s| && IsDigit(s[0]) && s[1] == ' ' && IsPrefix("tier", s[2..])
    ensures ExtractQuantity(s) == Some(s[0] as int - '0' as int)
  {
    assert RunEnd(s, 0, IsDigit) == 1 by {
      assert RunEnd(s, 1, IsDigit) == 1;
    }
    assert QuantityAt(s, Units, 0) by {
      TierAt(s);
    }
    QuantityAtFirstDigit(s, Units, 0);
  }

  lemma TierAt(s: string)
    requires 2 <= |s| && IsDigit(s[0]) && s[1] == ' ' && IsPrefix("tier", s[2..])
    ensures UnitAt(s, Units, UnitStart(s, 0))
  {
    assert s[2] == "tier"[0];
    assert RunEnd(s, 1, IsDigit) == 1;
    assert RunEnd(s, 2, IsSpace) == 2;
    assert Units[0] == "tier";
  }

  /** A test sentence of the quantity extractor. */
  const TiersSentence: string := "create a pricing table with 3 tiers"

  /** "create a pricing table with 3 tiers" asks for three. */
  lemma PricingTableThreeTiers()
    ensures ExtractQuantity(TiersSentence) == Some(3)
  {
    TiersMatch();
    TiersDigits();
    QuantityAtFirstDigit(TiersSentence, Units, 28);
  }

  lemma TiersMatch()
    ensures QuantityAt(TiersSentence, Units, 28)
    ensures forall j | 0 <= j < 28 :: !IsDigit(TiersSentence[j])
  {
    TiersUnitStart();
    assert IsPrefix(Units[0], TiersSentence[30..]);
  }

  lemma TiersUnitStart()
    ensures UnitStart(TiersSentence, 28) == 30
  {
    var s := TiersSentence;
    assert RunEnd(s, 28, IsDigit) == 29 by {
      assert RunEnd(s, 29, IsDigit) == 29;
    }
    assert RunEnd(s, 29, IsSpace) == 30 by {
      assert RunEnd(s, 30, IsSpace) == 30;
    }
  }

  lemma TiersDigits()
    ensures DecimalValue(TiersSentence[28..RunEnd(TiersSentence, 28, IsDigit)]) == 3
  {
    var s := TiersSentence;
    assert RunEnd(s, 28, IsDigit) == 29 by {
      assert RunEnd(s, 29, IsDigit) == 29;
    }
    assert s[28..29] == "3";
  }

  // --- extractComparison: /like\s+([a-zA-Z]+)/ and three more ---------------

  /** The literal words of each comparison pattern, each followed by `\s+`. */
  const ComparisonPatterns: seq<seq<Word>> := [["like"], ["similar", "to"], ["inspired", "by"], ["based", "on"]]

  /** Where the capture starts if the words `ws`, each followed by at least one
      white-space character, match from `i`. */
  function AfterWords(s: string, i: nat, ws: seq<Word>): (r: Option<nat>)
    requires i <= |s|
    decreases |ws|
    ensures r.Some? ==> i <= r.value <= |s|
  {
    if |ws| == 0 then Some(i)
    else if IsPrefix(ws[0], s[i..]) then
      var e := i + |ws[0]|;
      var f := RunEnd(s, e, IsSpace);
      if f > e then AfterWords(s, f, ws[1..]) else None
    else None
  }

  /** The pattern `ws` matches at `i`, with at least one letter to capture. */
  predicate ComparisonAt(s: string, ws: seq<Word>, i: nat) {
    i <= |s| && var a := AfterWords(s, i, ws); a.Some? && a.value < |s| && IsLetter(s[a.value])
  }

  /** Where the leftmost match of `ws` at or after `lo` starts. */
  function ComparisonFrom(s: string, ws: seq<Word>, lo: nat): (r: Option<nat>)
    requires lo <= |s| + 1
    decreases |s| + 1 - lo
    ensures r.None? <==> forall i | lo <= i <= |s| :: !ComparisonAt(s, ws, i)
    ensures r.Some? ==> lo <= r.value <= |s| && ComparisonAt(s, ws, r.value)
    ensures r.Some? ==> forall j | lo <= j < r.value :: !ComparisonAt(s, ws, j)
  {
    if lo == |s| + 1 then None
    else if ComparisonAt(s, ws, lo) then Some(lo)
    else ComparisonFrom(s, ws, lo + 1)
  }

  /** The capture of the leftmost match of one pattern: the maximal run of
      letters after it, case preserved. */
  function MatchPattern(s: string, ws: seq<Word>): (r: Option<string>)
    ensures r.None? <==> forall i | 0 <= i <= |s| :: !ComparisonAt(s, ws, i)
    ensures r.Some? ==> |r.value| > 0 && forall k | 0 <= k < |r.value| :: IsLetter(r.value[k])
  {
    match ComparisonFrom(s, ws, 0)
    case None => None
    case Some(i) => Some(Capture(s, AfterWords(s, i, ws).value))
  }

  /** A capture is the maximal letter run after the leftmost match. */
  lemma MatchPatternLeftmost(s: string, ws: seq<Word>)
    ensures MatchPattern(s, ws).Some? ==> LeftmostCapture(s, ws, MatchPattern(s, ws).value)
  {
    var i := ComparisonFrom(s, ws, 0);
    if i.Some? {
      assert CaptureAt(s, ws, i.value, MatchPattern(s, ws).value);
    }
  }

  /** `c` is what the pattern `ws` captures when it matches at `i`. */
  predicate CaptureAt(s: string, ws: seq<Word>, i: nat, c: string) {
    ComparisonAt(s, ws, i) && c == Capture(s, AfterWords(s, i, ws).value)
  }

  /** `c` is what the pattern captures at its leftmost match. */
  predicate LeftmostCapture(s: string, ws: seq<Word>, c: string) {
    exists i | 0 <= i <= |s| :: CaptureAt(s, ws, i, c) && forall j | 0 <= j < i :: !ComparisonAt(s, ws, j)
  }

  /** The maximal run of letters starting at `a`. */
  function Capture(s: string, a: nat): (r: string)
    requires a < |s| && IsLetter(s[a])
    ensures |r| > 0 && forall k | 0 <= k < |r| :: IsLetter(r[k])
    ensures a + |r| <= |s| && r == s[a..a + |r|]
    ensures a + |r| == |s| || !IsLetter(s[a + |r|])
  {
    var e := RunEnd(s, a, IsLetter);
    assert forall k | 0 <= k < e - a :: s[a..e][k] == s[a + k];
    s[a..e]
  }

  /** The capture of the first pattern, in list order, that matches. */
  function FirstCapture(s: string, patterns: seq<seq<Word>>): (r: Option<string>)
    ensures r.None? <==> forall k | 0 <= k < |patterns| :: MatchPattern(s, patterns[k]).None?
    ensures r.Some? ==> exists k | 0 <= k < |patterns| ::
      r == MatchPattern(s, patterns[k]) && forall j | 0 <= j < k :: MatchPattern(s, patterns[j]).None?
  {
    FirstSome(patterns, (ws: seq<Word>) => MatchPattern(s, ws))
  }

  /** `extractComparison`. */
  function ExtractComparison(s: string): Option<string> {
    FirstCapture(s, ComparisonPatterns)
  }

  /** Every match starts with the first letter of the pattern's first word. */
  lemma ComparisonStartsWithWord(s: string, ws: seq<Word>, j: nat)
    requires |ws| > 0 && ComparisonAt(s, ws, j)
    ensures j < |s| && s[j] == ws[0][0]
  {
    assert IsPrefix(ws[0], s[j..]);
    assert s[j..][0] == s[j];
  }

  /** A match with no earlier occurrence of the pattern's first letter is the
      leftmost match, and the capture is taken there. */
  lemma MatchPatternAt(s: string, ws: seq<Word>, i: nat)
    requires |ws| > 0 && ComparisonAt(s, ws, i)
    requires forall j | 0 <= j < i :: s[j] != ws[0][0]
    ensures MatchPattern(s, ws) == Some(Capture(s, AfterWords(s, i, ws).value))
  {
    forall j | 0 <= j < i ensures !ComparisonAt(s, ws, j) {
      if ComparisonAt(s, ws, j) {
        ComparisonStartsWithWord(s, ws, j);
      }
    }
    var r := ComparisonFrom(s, ws, 0);
    assert r.Some?;
    assert r.value == i;
  }

  /** A test sentence of the comparison extractor. */
  const StripeSentence: string := "create a button like Stripe"

  /** "create a button like Stripe" compares with `Stripe`, case preserved. */
  lemma ButtonLikeStripe()
    ensures ExtractComparison(StripeSentence) == Some("Stripe")
  {
    StripeMatch();
    StripeCapture();
    MatchPatternAt(StripeSentence, ComparisonPatterns[0], 16);
  }

  lemma StripeMatch()
    ensures ComparisonAt(StripeSentence, ["like"], 16)
    ensures AfterWords(StripeSentence, 16, ["like"]) == Some(21)
    ensures forall j | 0 <= j < 16 :: StripeSentence[j] != 'l'
  {
    var s := StripeSentence;
    assert RunEnd(s, 20, IsSpace) == 21 by {
      assert RunEnd(s, 21, IsSpace) == 21;
    }
    assert IsPrefix("like", s[16..]);
    assert AfterWords(s, 21, []) == Some(21);
    assert s[21] == 'S';
  }

  lemma StripeCapture()
    ensures Capture(StripeSentence, 21) == "Stripe"
  {
    var s := StripeSentence;
    assert RunEnd(s, 21, IsLetter) == 27;
    assert s[21..27] == "Stripe";
  }
}

=== FILE: seqs.dfy ===
/** Sequence helpers shared by the parser, the catalog and the generator:
    duplicate freedom, the first index satisfying a test, order-preserving
    filtering, and the insertion-ordered set behind `[...new Set(xs)]`. */
module Seqs {
  import opened Wrappers

  /** No element appears twice. */
  predicate Distinct<T(==)>(xs: seq<T>) {
    forall i, j | 0 <= i < j < |xs| :: xs[i] != xs[j]
  }

  /** `a` is a subsequence of `b`: `b` with some elements deleted. */
  predicate Embeds<T(==)>(a: seq<T>, b: seq<T>)
    decreases |b|
  {
    |a| == 0 || (|b| > 0 && if a[0] == b[0] then Embeds(a[1..], b[1..]) else Embeds(a, b[1..]))
  }

  lemma EmbedsRefl<T>(a: seq<T>)
    ensures Embeds(a, a)
  {
  }

  /** The least index in `[lo, hi)` that passes `p`: a `for` loop that
      returns at the first hit. */
  function Leftmost(lo: nat, hi: nat, p: nat -> bool): (r: Option<nat>)
    requires lo <= hi
    decreases hi - lo
    ensures r.Some? ==> lo <= r.value < hi && p(r.value)
    ensures r.Some? ==> forall j | lo <= j < r.value :: !p(j)
    ensures r.None? <==> forall j | lo <= j < hi :: !p(j)
  {
    if lo == hi then None
    else if p(lo) then Some(lo)
    else Leftmost(lo + 1, hi, p)
  }

  /** Whenever `k` passes `p` and nothing before it does, the search finds `k`. */
  lemma LeftmostFinds(lo: nat, hi: nat, p: nat -> bool, k: nat)
    requires lo <= k < hi && p(k)
    requires forall j | lo <= j < k :: !p(j)
    ensures Leftmost(lo, hi, p) == Some(k)
  {
    var r := Leftmost(lo, hi, p);
    assert r.Some?;
    assert !(r.value < k);
  }

  /** The first answer `f` gives along `xs`: a loop that returns on the
      first hit. */
  function FirstSome<A, B>(xs: seq<A>, f: A -> Option<B>): (r: Option<B>)
    ensures r.None? <==> forall k | 0 <= k < |xs| :: f(xs[k]).None?
    ensures r.Some? ==> exists k | 0 <= k < |xs| :: r == f(xs[k]) && forall j | 0 <= j < k :: f(xs[j]).None?
  {
    if |xs| == 0 then None
    else if f(xs[0]).Some? then f(xs[0])
    else
      var rest := xs[1..];
      var r := FirstSome(rest, f);
      assert forall k | 1 <= k < |xs| :: xs[k] == rest[k - 1];
      r
  }

  /** `xs.filter(p)`. */
  function Filter<T>(xs: seq<T>, p: T -> bool): (r: seq<T>)
    ensures |r| <= |xs|
    ensures forall x | x in r :: x in xs && p(x)
    ensures forall x | x in xs && p(x) :: x in r
    ensures Embeds(r, xs)
  {
    if |xs| == 0 then []
    else if p(xs[0]) then
      var t := Filter(xs[1..], p);
      assert xs == [xs[0]] + xs[1..];
      [xs[0]] + t
    else
      assert xs == [xs[0]] + xs[1..];
      Filter(xs[1..], p)
  }

  /** Filtering a sequence with one more element at the end keeps what it
      kept before, then that element if it passes. */
  lemma {:induction false} FilterSnoc<T>(xs: seq<T>, x: T, p: T -> bool)
    ensures Filter(xs + [x], p) == Filter(xs, p) + (if p(x) then [x] else [])
  {
    if |xs| == 0 {
      assert (xs + [x])[1..] == [];
    } else {
      assert (xs + [x])[0] == xs[0];
      assert (xs + [x])[1..] == xs[1..] + [x];
      FilterSnoc(xs[1..], x, p);
    }
  }

  /** The first element kept is the first element that passes. */
  lemma {:induction false} FilterFirst<T>(xs: seq<T>, p: T -> bool, j: nat)
    requires j < |xs| && p(xs[j])
    requires forall k | 0 <= k < j :: !p(xs[k])
    ensures |Filter(xs, p)| > 0 && Filter(xs, p)[0] == xs[j]
  {
    if j > 0 {
      assert xs[j] == xs[1..][j - 1];
      assert forall k | 0 <= k < j - 1 :: xs[1..][k] == xs[k + 1];
      FilterFirst(xs[1..], p, j - 1);
    }
  }

  /** A subsequence of a duplicate-free sequence is duplicate free. */
  lemma {:induction false} EmbedsDistinct<T>(a: seq<T>, b: seq<T>)
    requires Embeds(a, b) && Distinct(b)
    ensures Distinct(a)
    decreases |b|
  {
    if |a| > 0 {
      assert Distinct(b[1..]) by {
        forall i, j | 0 <= i < j < |b[1..]| ensures b[1..][i] != b[1..][j] {
          assert b[1..][i] == b[i + 1] && b[1..][j] == b[j + 1];
        }
      }
      if a[0] == b[0] {
        EmbedsDistinct(a[1..], b[1..]);
        EmbedsMembers(a[1..], b[1..]);
        forall j | 0 < j < |a| ensures a[0] != a[j] {
          assert a[j] == a[1..][j - 1];
          assert a[j] in b[1..];
        }
      } else {
        EmbedsDistinct(a, b[1..]);
      }
    }
  }

  lemma {:induction false} EmbedsMembers<T>(a: seq<T>, b: seq<T>)
    requires Embeds(a, b)
    ensures forall x | x in a :: x in b
    decreases |b|
  {
    if |a| > 0 {
      if a[0] == b[0] {
        EmbedsMembers(a[1..], b[1..]);
        assert a == [a[0]] + a[1..];
      } else {
        EmbedsMembers(a, b[1..]);
      }
    }
  }

  // ---------------------------------------------------------------------------
  // First occurrences and insertion-ordered sets
  // ---------------------------------------------------------------------------

  /** The elements of `xs`, each at the position of its first occurrence. */
  function Firsts<T(==)>(xs: seq<T>): (r: seq<T>)
    ensures Distinct(r)
    ensures forall x | x in r :: x in xs
    ensures forall x | x in xs :: x in r
  {
    if |xs| == 0 then []
    else
      var init := xs[..|xs| - 1];
      var x := xs[|xs| - 1];
      assert xs == init + [x];
      if x in init then Firsts(init) else Firsts(init) + [x]
  }

  /** Adding the elements of `xs`, one after another, to an insertion-ordered
      set whose contents are `acc` (JavaScript's `Set`): an element already
      present keeps its place. */
  function Insert<T(==)>(acc: seq<T>, xs: seq<T>): (r: seq<T>)
    decreases |xs|
    ensures Distinct(acc) ==> Distinct(r)
    ensures forall x | x in r :: x in acc || x in xs
    ensures forall x | x in acc :: x in r
    ensures forall x | x in xs :: x in r
    ensures |acc| <= |r| && r[..|acc|] == acc
  {
    if |xs| == 0 then acc
    else
      assert xs == [xs[0]] + xs[1..];
      if xs[0] in acc then Insert(acc, xs[1..])
      else
        var a := acc + [xs[0]];
        var r := Insert(a, xs[1..]);
        assert r[..|acc|] == r[..|a|][..|acc|];
        r
  }

  /** One more element extends the first occurrences exactly when it is new. */
  lemma FirstsSnoc<T>(a: seq<T>, x: T)
    ensures Firsts(a + [x]) == if x in Firsts(a) then Firsts(a) else Firsts(a) + [x]
  {
    var a' := a + [x];
    assert a'[..|a'| - 1] == a;
  }

  /** One insertion step: the head joins the set unless already present. */
  lemma InsertStep<T>(acc: seq<T>, xs: seq<T>)
    requires |xs| > 0
    ensures Insert(acc, xs) == Insert(if xs[0] in acc then acc else acc + [xs[0]], xs[1..])
  {
  }

  /** Inserting into the set built from `a` the elements of `b` yields the
      set built from `a + b`. */
  lemma {:induction false} InsertFirsts<T>(a: seq<T>, b: seq<T>)
    ensures Insert(Firsts(a), b) == Firsts(a + b)
    decreases |b|
  {
    if |b| == 0 {
      assert a + b == a;
    } else {
      var a' := a + [b[0]];
      assert Insert(Firsts(a), b) == Insert(Firsts(a'), b[1..]) by {
        InsertStep(Firsts(a), b);
        FirstsSnoc(a, b[0]);
      }
      assert a' + b[1..] == a + b;
      InsertFirsts(a', b[1..]);
    }
  }

  /** `[...new Set(xs)]`. */
  function Dedup<T(==)>(xs: seq<T>): (r: seq<T>)
    ensures Distinct(r)
    ensures forall x | x in r :: x in xs
    ensures forall x | x in xs :: x in r
  {
    Insert([], xs)
  }

  /** The deduplicated list keeps each element where it first appeared. */
  lemma DedupIsFirsts<T>(xs: seq<T>)
    ensures Dedup(xs) == Firsts(xs)
  {
    InsertFirsts([], xs);
    assert [] + xs == xs;
  }

  /** A duplicate-free list contains its element exactly once. */
  lemma DistinctOnce<T>(xs: seq<T>, x: T)
    requires Distinct(xs) && x in xs
    ensures multiset(xs)[x] == 1
    decreases |xs|
  {
    assert xs == [xs[0]] + xs[1..];
    if xs[0] == x {
      forall j | 0 <= j < |xs[1..]| ensures xs[1..][j] != x {
        assert xs[1..][j] == xs[j + 1];
      }
      assert x !in multiset(xs[1..]);
    } else {
      assert Distinct(xs[1..]) by {
        forall i, j | 0 <= i < j < |xs[1..]| ensures xs[1..][i] != xs[1..][j] {
          assert xs[1..][i] == xs[i + 1] && xs[1..][j] == xs[j + 1];
        }
      }
      DistinctOnce(xs[1..], x);
    }
  }
}

=== FILE: strings.dfy ===
/** Text primitives with the semantics of the JavaScript string operations the
    generator relies on: `includes`, `split(q).length - 1`, `replace` with a
    string pattern (first occurrence only), `replace` with a global regular
    expression made of literal text (every non-overlapping occurrence, left
    to right), `toLowerCase` and `trim`.

    The scanning operations are defined the way a left-to-right matcher runs:
    at each position either the pattern matches (and the scan resumes after
    it) or one character is kept and the scan moves on. */
module Strings {

  // ---------------------------------------------------------------------------
  // Occurrences
  // ---------------------------------------------------------------------------

  /** `q` occurs in `s` starting at index `i`. */
  predicate OccursAt(s: string, q: string, i: int) {
    0 <= i && i + |q| <= |s| && s[i..i + |q|] == q
  }

  /** `q` occurs somewhere in `s`: the quantified reading of substring. */
  predicate Occurs(s: string, q: string) {
    exists i | 0 <= i <= |s| - |q| :: OccursAt(s, q, i)
  }

  /** `i` is the leftmost occurrence of `q` in `s`. */
  predicate FirstOccurrence(s: string, q: string, i: int) {
    OccursAt(s, q, i) && forall j | 0 <= j < i :: !OccursAt(s, q, j)
  }

  /** `s.startsWith(p)`. */
  predicate IsPrefix(p: string, s: string) {
    |p| <= |s| && s[..|p|] == p
  }

  /** `s.includes(q)`, as a left-to-right scan: `q` starts `s` or is found
      further on. */
  predicate Contains(s: string, q: string)
    decreases |s|
  {
    IsPrefix(q, s) || (|s| > 0 && Contains(s[1..], q))
  }

  /** One disagreeing character rules an occurrence out. */
  lemma MismatchAt(s: string, q: string, i: int, j: int)
    requires 0 <= i && 0 <= j < |q| && i + j < |s| && s[i + j] != q[j]
    ensures !OccursAt(s, q, i)
  {
    if i + |q| <= |s| {
      assert s[i..i + |q|][j] == s[i + j];
    }
  }

  /** Occurrences in `s[1..]` are the occurrences in `s` moved one place left. */
  lemma OccursInTail(s: string, q: string)
    requires |s| > 0
    ensures forall i | 0 <= i :: OccursAt(s, q, i + 1) <==> OccursAt(s[1..], q, i)
  {
    forall i | 0 <= i ensures OccursAt(s, q, i + 1) <==> OccursAt(s[1..], q, i) {
      if i + 1 + |q| <= |s| {
        assert s[i + 1..i + 1 + |q|] == s[1..][i..i + |q|] by {
          var t := s[1..];
          assert forall k | 0 <= k < |t| :: t[k] == s[k + 1];
        }
      }
    }
  }

  lemma OccursAtHead(s: string, q: string)
    ensures OccursAt(s, q, 0) <==> IsPrefix(q, s)
  {
    if |q| <= |s| {
      assert s[0..|q|] == s[..|q|];
    }
  }

  /** `q` occurs in `s` exactly when it starts `s` or occurs in its tail. */
  lemma OccursCons(s: string, q: string)
    requires |s| > 0
    ensures Occurs(s, q) <==> IsPrefix(q, s) || Occurs(s[1..], q)
  {
    OccursInTail(s, q);
    OccursAtHead(s, q);
    if Occurs(s, q) && !IsPrefix(q, s) {
      var i :| 0 <= i <= |s| - |q| && OccursAt(s, q, i);
      assert OccursAt(s[1..], q, i - 1);
    }
    if Occurs(s[1..], q) {
      var i :| 0 <= i <= |s[1..]| - |q| && OccursAt(s[1..], q, i);
      assert OccursAt(s, q, i + 1);
    }
  }

  /** The scan finds `q` exactly when `q` occurs at some index. */
  lemma {:induction false} ContainsIff(s: string, q: string)
    ensures Contains(s, q) <==> Occurs(s, q)
    decreases |s|
  {
    OccursAtHead(s, q);
    if |s| > 0 {
      OccursCons(s, q);
      ContainsIff(s[1..], q);
    }
  }

  /** Substring is transitive: a text containing "small" contains "sm". */
  lemma ContainsTransitive(s: string, t: string, q: string)
    requires Contains(s, t) && Contains(t, q)
    ensures Contains(s, q)
  {
    ContainsIff(s, t);
    ContainsIff(t, q);
    ContainsIff(s, q);
    var i :| 0 <= i <= |s| - |t| && OccursAt(s, t, i);
    var j :| 0 <= j <= |t| - |q| && OccursAt(t, q, j);
    forall k | 0 <= k < |q| ensures s[i + j..i + j + |q|][k] == q[k] {
      assert t[j..j + |q|][k] == q[k];
      assert s[i..i + |t|][j + k] == t[j + k];
    }
    assert OccursAt(s, q, i + j);
  }

  /** A slice of a text free of `q` is free of `q`. */
  lemma SliceFree(s: string, q: string, a: int, b: int)
    requires 0 <= a <= b <= |s| && !Contains(s, q)
    ensures !Contains(s[a..b], q)
  {
    ContainsIff(s, q);
    ContainsIff(s[a..b], q);
    var t := s[a..b];
    forall i | 0 <= i <= |t| - |q| ensures !OccursAt(t, q, i) {
      assert t[i..i + |q|] == s[a + i..a + i + |q|] by {
        var u := t[i..i + |q|];
        assert forall k | 0 <= k < |u| :: u[k] == s[a + i + k];
      }
      assert !OccursAt(s, q, a + i);
    }
  }

  // ---------------------------------------------------------------------------
  // Counting: `s.split(q).length - 1`
  // ---------------------------------------------------------------------------

  /** `s.split(q).length - 1` for a non-empty separator `q`: the number of
      non-overlapping occurrences found scanning left to right. */
  function Count(s: string, q: string): (n: nat)
    requires |q| > 0
    decreases |s|
    ensures n > 0 <==> Contains(s, q)
  {
    if |s| == 0 then 0
    else if IsPrefix(q, s) then 1 + Count(s[|q|..], q)
      else Count(s[1..], q)
  }

  /** `split` semantics: the leftmost occurrence counts once and the count
      resumes after it, so occurrences overlapping a counted one are not
      counted. With `n > 0 <==> Contains(s, q)` this pins every count. */
  lemma {:induction false} CountFirst(s: string, q: string, i: nat)
    requires |q| > 0 && FirstOccurrence(s, q, i)
    ensures Count(s, q) == 1 + Count(s[i + |q|..], q)
    decreases i
  {
    OccursAtHead(s, q);
    if i > 0 {
      OccursInTail(s, q);
      assert FirstOccurrence(s[1..], q, i - 1) by {
        forall j | 0 <= j < i - 1 ensures !OccursAt(s[1..], q, j) {
          assert !OccursAt(s, q, j + 1);
        }
      }
      CountFirst(s[1..], q, i - 1);
      assert s[1..][i - 1 + |q|..] == s[i + |q|..];
    }
  }

  /** A keyword written twice is counted twice: "dialog dialog". */
  lemma CountTwice()
    ensures Count("dialog dialog", "dialog") == 2
  {
  }

  /** A keyword that occurs exactly once is counted once. */
  lemma {:induction false} CountSingle(s: string, q: string, i: nat)
    requires |q| > 0 && OccursAt(s, q, i)
    requires forall j | j != i :: !OccursAt(s, q, j)
    ensures Count(s, q) == 1
    decreases i
  {
    OccursAtHead(s, q);
    if i == 0 {
      var t := s[|q|..];
      forall j | 0 <= j <= |t| - |q| ensures !OccursAt(t, q, j) {
        assert !OccursAt(s, q, j + |q|);
        assert s[j + |q|..j + |q| + |q|] == t[j..j + |q|];
      }
      ContainsIff(t, q);
      assert Count(t, q) == 0;
    } else {
      OccursInTail(s, q);
      assert !OccursAt(s, q, 0);
      forall j | j != i - 1 ensures !OccursAt(s[1..], q, j) {
        if 0 <= j {
          assert !OccursAt(s, q, j + 1);
        }
      }
      CountSingle(s[1..], q, i - 1);
    }
  }

  // ---------------------------------------------------------------------------
  // Replacement
  // ---------------------------------------------------------------------------

  /** `s.replace(p, rep)` with a string pattern: only the leftmost occurrence
      of `p` is replaced. */
  function ReplaceFirst(s: string, p: string, rep: string): (r: string)
    decreases |s|
    ensures !Contains(s, p) ==> r == s
  {
    if IsPrefix(p, s) then rep + s[|p|..]
    else if |s| == 0 then s
    else
      assert s == [s[0]] + s[1..];
      [s[0]] + ReplaceFirst(s[1..], p, rep)
  }

  /** `s.replace(/p/g, rep)` for a non-empty pattern of literal text: every
      non-overlapping occurrence, scanning left to right, is replaced. */
  function ReplaceAll(s: string, p: string, rep: string): (r: string)
    requires |p| > 0
    decreases |s|
  {
    if |s| == 0 then ""
    else if IsPrefix(p, s) then rep + ReplaceAll(s[|p|..], p, rep)
    else [s[0]] + ReplaceAll(s[1..], p, rep)
  }

  /** Without an occurrence of the pattern the text is returned unchanged. */
  lemma {:induction false} ReplaceAllAbsent(s: string, p: string, rep: string)
    requires |p| > 0 && !Contains(s, p)
    ensures ReplaceAll(s, p, rep) == s
    decreases |s|
  {
    if |s| > 0 {
      ReplaceAllNoPrefix(s, p, rep);
      ReplaceAllAbsent(s[1..], p, rep);
      assert s == [s[0]] + s[1..];
    }
  }

  lemma FirstOccurrenceTail(s: string, p: string, i: nat)
    requires i > 0 && FirstOccurrence(s, p, i)
    ensures |s| > 0 && !IsPrefix(p, s) && FirstOccurrence(s[1..], p, i - 1)
  {
    OccursInTail(s, p);
    OccursAtHead(s, p);
    assert !OccursAt(s, p, 0);
    forall j | 0 <= j < i - 1 ensures !OccursAt(s[1..], p, j) {
      assert !OccursAt(s, p, j + 1);
    }
  }

  /** `replace` with a string pattern rewrites exactly the leftmost
      occurrence and keeps the text on both sides of it. */
  lemma {:induction false} ReplaceFirstSplit(s: string, p: string, rep: string, i: nat)
    requires FirstOccurrence(s, p, i)
    ensures ReplaceFirst(s, p, rep) == s[..i] + rep + s[i + |p|..]
    decreases i
  {
    if i == 0 {
      OccursAtHead(s, p);
    } else {
      var before := s[1..][..i - 1];
      var after := s[i + |p|..];
      assert ReplaceFirst(s, p, rep) == [s[0]] + (before + rep + after) by {
        FirstOccurrenceTail(s, p, i);
        ReplaceFirstNoPrefix(s, p, rep);
        ReplaceFirstSplit(s[1..], p, rep, i - 1);
        assert s[1..][i - 1 + |p|..] == after;
      }
      assert [s[0]] + before == s[..i];
      assert [s[0]] + (before + rep + after) == ([s[0]] + before) + rep + after;
    }
  }

  lemma ReplaceFirstNoPrefix(s: string, p: string, rep: string)
    requires |s| > 0 && !IsPrefix(p, s)
    ensures ReplaceFirst(s, p, rep) == [s[0]] + ReplaceFirst(s[1..], p, rep)
  {
  }

  lemma ReplaceAllAtPrefix(s: string, p: string, rep: string)
    requires |p| > 0 && IsPrefix(p, s)
    ensures ReplaceAll(s, p, rep) == rep + ReplaceAll(s[|p|..], p, rep)
  {
  }

  lemma ReplaceAllNoPrefix(s: string, p: string, rep: string)
    requires |p| > 0 && |s| > 0 && !IsPrefix(p, s)
    ensures ReplaceAll(s, p, rep) == [s[0]] + ReplaceAll(s[1..], p, rep)
  {
  }

  /** The global replacement keeps the text before the leftmost occurrence,
      rewrites that occurrence and carries on after it. */
  lemma {:induction false} ReplaceAllSplit(s: string, p: string, rep: string, i: nat)
    requires |p| > 0 && FirstOccurrence(s, p, i)
    ensures ReplaceAll(s, p, rep) == s[..i] + rep + ReplaceAll(s[i + |p|..], p, rep)
    decreases i
  {
    if i == 0 {
      OccursAtHead(s, p);
      ReplaceAllAtPrefix(s, p, rep);
    } else {
      var before := s[1..][..i - 1];
      var r := ReplaceAll(s[i + |p|..], p, rep);
      assert ReplaceAll(s, p, rep) == [s[0]] + (before + rep + r) by {
        FirstOccurrenceTail(s, p, i);
        ReplaceAllNoPrefix(s, p, rep);
        ReplaceAllSplit(s[1..], p, rep, i - 1);
        assert s[1..][i - 1 + |p|..] == s[i + |p|..];
      }
      assert [s[0]] + before == s[..i];
      assert [s[0]] + (before + rep + r) == ([s[0]] + before) + rep + r;
    }
  }

  /** Replacing a pattern by itself changes nothing. */
  lemma {:induction false} ReplaceAllSelf(s: string, p: string)
    requires |p| > 0
    ensures ReplaceAll(s, p, p) == s
    decreases |s|
  {
    if |s| > 0 {
      if IsPrefix(p, s) {
        ReplaceAllAtPrefix(s, p, p);
        ReplaceAllSelf(s[|p|..], p);
        assert s == s[..|p|] + s[|p|..];
      } else {
        ReplaceAllNoPrefix(s, p, p);
        ReplaceAllSelf(s[1..], p);
        assert s == [s[0]] + s[1..];
      }
    }
  }

  // ---------------------------------------------------------------------------
  // Reasoning about concatenations
  // ---------------------------------------------------------------------------

  /** No occurrence of `q` in `a + c` begins inside `a`. */
  predicate NoStartIn(a: string, c: string, q: string) {
    forall i | 0 <= i < |a| :: !OccursAt(a + c, q, i)
  }

  /** `q` cannot begin inside a text that lacks its first character. */
  lemma NoStartWithoutHead(a: string, c: string, q: string)
    requires |q| > 0 && q[0] !in a
    ensures NoStartIn(a, c, q)
  {
    forall i | 0 <= i < |a| ensures !OccursAt(a + c, q, i) {
      assert a[i] in a;
      assert (a + c)[i + 0] == a[i];
      MismatchAt(a + c, q, i, 0);
    }
  }

  lemma NoStartInTail(a: string, c: string, q: string)
    requires |a| > 0 && NoStartIn(a, c, q)
    ensures (a + c)[1..] == a[1..] + c && NoStartIn(a[1..], c, q) && !IsPrefix(q, a + c)
  {
    assert (a + c)[1..] == a[1..] + c;
    OccursInTail(a + c, q);
    OccursAtHead(a + c, q);
    forall i | 0 <= i < |a[1..]| ensures !OccursAt(a[1..] + c, q, i) {
      assert !OccursAt(a + c, q, i + 1);
    }
  }

  /** A free prefix passes through the global replacement unchanged. */
  lemma {:induction false} ReplaceAllAfterFree(a: string, c: string, p: string, rep: string)
    requires |p| > 0 && NoStartIn(a, c, p)
    ensures ReplaceAll(a + c, p, rep) == a + ReplaceAll(c, p, rep)
    decreases |a|
  {
    if |a| > 0 {
      NoStartInTail(a, c, p);
      ReplaceAllNoPrefix(a + c, p, rep);
      ReplaceAllAfterFree(a[1..], c, p, rep);
      assert [a[0]] + (a[1..] + ReplaceAll(c, p, rep)) == a + ReplaceAll(c, p, rep);
    } else {
      assert a + c == c;
    }
  }

  lemma ReplaceAllAtHead(p: string, c: string, rep: string)
    requires |p| > 0
    ensures ReplaceAll(p + c, p, rep) == rep + ReplaceAll(c, p, rep)
  {
    assert (p + c)[..|p|] == p;
    assert (p + c)[|p|..] == c;
    ReplaceAllAtPrefix(p + c, p, rep);
  }

  /** A free prefix passes through the first-occurrence replacement unchanged. */
  lemma {:induction false} ReplaceFirstAfterFree(a: string, c: string, p: string, rep: string)
    requires |p| > 0 && NoStartIn(a, c, p)
    ensures ReplaceFirst(a + c, p, rep) == a + ReplaceFirst(c, p, rep)
    decreases |a|
  {
    if |a| > 0 {
      NoStartInTail(a, c, p);
      ReplaceFirstAfterFree(a[1..], c, p, rep);
      assert [a[0]] + (a[1..] + ReplaceFirst(c, p, rep)) == a + ReplaceFirst(c, p, rep);
    } else {
      assert a + c == c;
    }
  }

  lemma ReplaceFirstAtHead(p: string, c: string, rep: string)
    ensures ReplaceFirst(p + c, p, rep) == rep + c
  {
    assert (p + c)[..|p|] == p;
    assert (p + c)[|p|..] == c;
  }

  /** A text that lacks the first character of `q` is free of `q`. */
  lemma FreeWithoutHead(a: string, q: string)
    requires |q| > 0 && q[0] !in a
    ensures !Contains(a, q)
  {
    NoStartWithoutHead(a, "", q);
    assert a + "" == a;
    ContainsIff(a, q);
  }

  // ---------------------------------------------------------------------------
  // Replacement never re-creates a pattern
  // ---------------------------------------------------------------------------

  /** `x` is non-empty and its first character occurs nowhere else in it. */
  predicate HeadUnique(x: string) {
    |x| > 0 && x[0] !in x[1..]
  }

  /** An occurrence in `a + b` lying wholly inside `a`, or wholly inside `b`,
      is an occurrence there. */
  lemma OccursInConcat(a: string, b: string, q: string, i: int)
    ensures 0 <= i && i + |q| <= |a| ==> (OccursAt(a + b, q, i) <==> OccursAt(a, q, i))
    ensures |a| <= i ==> (OccursAt(a + b, q, i) <==> OccursAt(b, q, i - |a|))
  {
    var s := a + b;
    if 0 <= i && i + |q| <= |a| {
      assert s[i..i + |q|] == a[i..i + |q|];
    } else if |a| <= i && i + |q| <= |s| {
      assert s[i..i + |q|] == b[i - |a|..i - |a| + |q|];
    }
  }

  /** Joining two texts free of `q` cannot create `q` when the right one
      begins with `q[0]`, which `q` holds at no other position. */
  lemma ConcatFree(a: string, b: string, q: string)
    requires HeadUnique(q)
    requires !Contains(a, q) && !Contains(b, q)
    requires |b| == 0 || b[0] == q[0]
    ensures !Contains(a + b, q)
  {
    ContainsIff(a, q);
    ContainsIff(b, q);
    ContainsIff(a + b, q);
    var s := a + b;
    forall i | 0 <= i <= |s| - |q| ensures !OccursAt(s, q, i) {
      OccursInConcat(a, b, q, i);
      if i < |a| < i + |q| {
        var m := |a| - i;
        assert s[i + m] == b[0];
        assert q[m] == q[1..][m - 1];
        MismatchAt(s, q, i, m);
      }
    }
  }

  /** A replacement text that begins with `q[0]` and holds it nowhere else,
      and is neither a prefix of `q` nor has `q` as a prefix, cannot take
      part in an occurrence of `q`. */
  lemma LeadFree(rep: string, t: string, q: string)
    requires |q| > 0 && HeadUnique(rep) && rep[0] == q[0]
    requires !IsPrefix(q, rep) && !IsPrefix(rep, q)
    requires !Contains(t, q)
    ensures !Contains(rep + t, q)
  {
    ContainsIff(t, q);
    ContainsIff(rep + t, q);
    var s := rep + t;
    forall i | 0 <= i <= |s| - |q| ensures !OccursAt(s, q, i) {
      if i >= |rep| {
        assert !OccursAt(t, q, i - |rep|);
        assert s[i..i + |q|] == t[i - |rep|..i - |rep| + |q|];
      } else if i > 0 {
        assert rep[i] == rep[1..][i - 1];
        assert s[i + 0] == rep[i];
        MismatchAt(s, q, i, 0);
      } else if |q| <= |rep| {
        assert rep[..|q|] != q;
        assert s[..|q|] == rep[..|q|];
        assert s[0..|q|] == s[..|q|];
      } else {
        assert q[..|rep|] != rep;
        var j :| 0 <= j < |rep| && q[..|rep|][j] != rep[j];
        assert s[j] == rep[j];
        MismatchAt(s, q, 0, j);
      }
    }
  }

  /** The text before the leftmost `p` holds no `p`. */
  lemma BeforeFirstFree(s: string, p: string, i: int)
    requires |p| > 0 && FirstOccurrence(s, p, i)
    ensures !Contains(s[..i], p)
  {
    ContainsIff(s[..i], p);
    var h := s[..i];
    forall j | 0 <= j <= |h| - |p| ensures !OccursAt(h, p, j) {
      assert !OccursAt(s, p, j);
      assert h[j..j + |p|] == s[j..j + |p|];
    }
  }

  lemma FirstOccurrenceCons(s: string, q: string, j: nat)
    requires |s| > 0 && !IsPrefix(q, s) && FirstOccurrence(s[1..], q, j)
    ensures FirstOccurrence(s, q, j + 1)
  {
    OccursInTail(s, q);
    OccursAtHead(s, q);
    forall k | 0 <= k < j + 1 ensures !OccursAt(s, q, k) {
      if k > 0 {
        assert !OccursAt(s[1..], q, k - 1);
      }
    }
  }

  /** The leftmost occurrence of a contained text. */
  function FirstIndex(s: string, q: string): (i: nat)
    requires Contains(s, q)
    decreases |s|
    ensures FirstOccurrence(s, q, i)
  {
    if IsPrefix(q, s) then 0
    else
      var j := FirstIndex(s[1..], q);
      FirstOccurrenceCons(s, q, j);
      j + 1
  }

  /** After replacing every `p` by `rep`, no `q` remains, provided `q` was
      absent or is `p` itself, and `rep` and `q` share a first character held
      nowhere else in either. */
  lemma {:induction false} ReplaceAllLeavesNo(s: string, p: string, rep: string, q: string)
    requires |p| > 0 && HeadUnique(q) && HeadUnique(rep) && rep[0] == q[0]
    requires !IsPrefix(q, rep) && !IsPrefix(rep, q)
    requires q == p || !Contains(s, q)
    ensures !Contains(ReplaceAll(s, p, rep), q)
    decreases |s|
  {
    if Contains(s, p) {
      var i := FirstIndex(s, p);
      var head := s[..i];
      var rest := s[i + |p|..];
      if q == p {
        BeforeFirstFree(s, p, i);
      } else {
        SliceFree(s, q, 0, i);
        SliceFree(s, q, i + |p|, |s|);
      }
      assert s[i + |p|..|s|] == rest;
      ReplaceAllSplit(s, p, rep, i);
      ReplaceAllLeavesNo(rest, p, rep, q);
      JoinFree(head, rep, ReplaceAll(rest, p, rep), q);
    } else {
      ReplaceAllAbsent(s, p, rep);
    }
  }

  lemma JoinFree(head: string, rep: string, tail: string, q: string)
    requires HeadUnique(q) && HeadUnique(rep) && rep[0] == q[0]
    requires !IsPrefix(q, rep) && !IsPrefix(rep, q)
    requires !Contains(head, q) && !Contains(tail, q)
    ensures !Contains(head + rep + tail, q)
  {
    LeadFree(rep, tail, q);
    ConcatFree(head, rep + tail, q);
    assert head + rep + tail == head + (rep + tail);
  }

  // ---------------------------------------------------------------------------
  // Replacing across a text assembled from known pieces
  // ---------------------------------------------------------------------------

  /** No occurrence of `q` begins inside a piece `a` that starts like `q`,
      holds that character nowhere else, and parts from `q` before either
      ends. */
  lemma LeadNoStart(a: string, c: string, q: string)
    requires |q| > 0 && HeadUnique(a) && a[0] == q[0]
    requires !IsPrefix(q, a) && !IsPrefix(a, q)
    ensures NoStartIn(a, c, q)
  {
    var s := a + c;
    forall i | 0 <= i < |a| ensures !OccursAt(s, q, i) {
      if i > 0 {
        assert a[i] == a[1..][i - 1];
        assert s[i + 0] == a[i];
        MismatchAt(s, q, i, 0);
      } else if |q| <= |a| {
        assert a[..|q|] != q;
        assert s[..|q|] == a[..|q|];
        assert s[0..|q|] == s[..|q|];
      } else {
        assert q[..|a|] != a;
        var j :| 0 <= j < |a| && q[..|a|][j] != a[j];
        assert s[j] == a[j];
        MismatchAt(s, q, 0, j);
      }
    }
  }

  /** Two texts that disagree at an index both reach are not prefixes of
      one another. */
  lemma DisagreeNoPrefix(a: string, b: string, j: nat)
    requires j < |a| && j < |b| && a[j] != b[j]
    ensures !IsPrefix(a, b) && !IsPrefix(b, a)
  {
    assert |a| <= |b| ==> b[..|a|][j] == b[j];
    assert |b| <= |a| ==> a[..|b|][j] == a[j];
  }

  /** Filling one slot between a fixed prefix and suffix with two different
      texts, neither holding the suffix's first character, gives two texts
      neither of which is a prefix of the other. */
  lemma DistinctFills(pre: string, a: string, b: string, suf: string)
    requires |suf| > 0 && suf[0] !in a && suf[0] !in b && a != b
    ensures !IsPrefix(pre + a + suf, pre + b + suf)
  {
    var x, y := pre + a + suf, pre + b + suf;
    if |a| == |b| {
      var j :| 0 <= j < |a| && a[j] != b[j];
      assert x[|pre| + j] == a[j] && y[|pre| + j] == b[j];
      DisagreeNoPrefix(x, y, |pre| + j);
    } else if |a| < |b| {
      assert x[|pre| + |a|] == suf[0];
      assert y[|pre| + |a|] == b[|a|] && b[|a|] in b;
      DisagreeNoPrefix(x, y, |pre| + |a|);
    } else {
      assert |x| > |y|;
    }
  }

  /** A global replacement passes over a piece that lacks the pattern's
      first character. */
  lemma PassFree(a: string, c: string, p: string, rep: string)
    requires |p| > 0 && p[0] !in a
    ensures ReplaceAll(a + c, p, rep) == a + ReplaceAll(c, p, rep)
  {
    NoStartWithoutHead(a, c, p);
    ReplaceAllAfterFree(a, c, p, rep);
  }

  /** A global replacement passes over a piece that starts like the pattern
      but parts from it. */
  lemma PassLead(a: string, c: string, p: string, rep: string)
    requires |p| > 0 && HeadUnique(a) && a[0] == p[0]
    requires !IsPrefix(p, a) && !IsPrefix(a, p)
    ensures ReplaceAll(a + c, p, rep) == a + ReplaceAll(c, p, rep)
  {
    LeadNoStart(a, c, p);
    ReplaceAllAfterFree(a, c, p, rep);
  }

  /** A global replacement leaves alone a text without the pattern's first
      character. */
  lemma PassEnd(t: string, p: string, rep: string)
    requires |p| > 0 && p[0] !in t
    ensures ReplaceAll(t, p, rep) == t
  {
    FreeWithoutHead(t, p);
    ReplaceAllAbsent(t, p, rep);
  }

  /** A first-occurrence replacement passes over a piece that lacks the
      pattern's first character. */
  lemma FirstPassFree(a: string, c: string, p: string, rep: string)
    requires |p| > 0 && p[0] !in a
    ensures ReplaceFirst(a + c, p, rep) == a + ReplaceFirst(c, p, rep)
  {
    NoStartWithoutHead(a, c, p);
    ReplaceFirstAfterFree(a, c, p, rep);
  }

  /** A first-occurrence replacement of the pattern by itself changes
      nothing. */
  lemma ReplaceFirstSelf(s: string, p: string)
    ensures ReplaceFirst(s, p, p) == s
    decreases |s|
  {
    if IsPrefix(p, s) {
      assert s == s[..|p|] + s[|p|..];
    } else if |s| > 0 {
      ReplaceFirstSelf(s[1..], p);
      assert s == [s[0]] + s[1..];
    }
  }

  // ---------------------------------------------------------------------------
  // Case, white space and character classes
  // ---------------------------------------------------------------------------

  predicate IsUpper(c: char) {
    'A' <= c <= 'Z'
  }

  function LowerChar(c: char): char {
    if IsUpper(c) then (c as int - 'A' as int + 'a' as int) as char else c
  }

  /** `toLowerCase` restricted to the ASCII letters. */
  function Lower(s: string): (r: string)
    ensures |r| == |s|
    ensures forall i | 0 <= i < |r| :: !IsUpper(r[i])
    ensures forall i | 0 <= i < |s| && !IsUpper(s[i]) :: r[i] == s[i]
    ensures forall i | 0 <= i < |s| && IsUpper(s[i]) :: r[i] as int == s[i] as int + 32
  {
    seq(|s|, i requires 0 <= i < |s| => LowerChar(s[i]))
  }

  lemma LowerIdempotent(s: string)
    ensures Lower(Lower(s)) == Lower(s)
  {
  }

  /** A text without upper-case letters is its own lower-case form. */
  lemma LowerNoUpper(s: string)
    requires forall i | 0 <= i < |s| :: !IsUpper(s[i])
    ensures Lower(s) == s
  {
  }

  /** The characters JavaScript's `trim` removes and its `\s` matches:
      WhiteSpace and LineTerminator of the language standard. */
  predicate IsSpace(c: char) {
    var n := c as int;
    || n == 0x09 || n == 0x0A || n == 0x0B || n == 0x0C || n == 0x0D
    || n == 0x20 || n == 0xA0 || n == 0x1680 || 0x2000 <= n <= 0x200A
    || n == 0x2028 || n == 0x2029 || n == 0x202F || n == 0x205F
    || n == 0x3000 || n == 0xFEFF
  }

  predicate IsDigit(c: char) {
    '0' <= c <= '9'
  }

  predicate IsLetter(c: char) {
    'a' <= c <= 'z' || 'A' <= c <= 'Z'
  }

  /** The start of the run of white space that ends at `hi`, going no
      further left than `lo`. */
  function SpaceRunBack(s: string, lo: nat, hi: nat): (e: nat)
    requires lo <= hi <= |s|
    decreases hi - lo
    ensures lo <= e <= hi
    ensures forall k | e <= k < hi :: IsSpace(s[k])
    ensures e == lo || !IsSpace(s[e - 1])
  {
    if lo < hi && IsSpace(s[hi - 1]) then SpaceRunBack(s, lo, hi - 1) else hi
  }

  /** Where `trim` cuts `s`: after its leading white space and before its
      trailing white space. */
  function TrimStartIndex(s: string): (a: nat)
    ensures a <= |s|
  {
    RunEnd(s, 0, IsSpace)
  }

  function TrimEndIndex(s: string): (b: nat)
    ensures TrimStartIndex(s) <= b <= |s|
  {
    SpaceRunBack(s, TrimStartIndex(s), |s|)
  }

  /** `trim`: the text without leading and trailing white space. */
  function Trim(s: string): (r: string)
    ensures |r| <= |s|
    ensures |r| > 0 ==> !IsSpace(r[0]) && !IsSpace(r[|r| - 1])
  {
    s[TrimStartIndex(s)..TrimEndIndex(s)]
  }

  /** Trimming text that neither starts nor ends with white space is the
      identity. */
  lemma TrimNoSpaceEnds(s: string)
    requires |s| > 0 ==> !IsSpace(s[0]) && !IsSpace(s[|s| - 1])
    ensures Trim(s) == s
  {
    assert s[0..|s|] == s;
  }

  /** Trimming only removes characters: each one left comes from the input. */
  lemma TrimKeepsCharacters(s: string)
    ensures forall i | 0 <= i < |Trim(s)| :: Trim(s)[i] in s
  {
    var a := TrimStartIndex(s);
    forall i | 0 <= i < |Trim(s)| ensures Trim(s)[i] in s {
      assert Trim(s)[i] == s[a + i];
    }
  }

  /** `q` holds no white space character. */
  predicate NoSpace(q: string) {
    forall k | 0 <= k < |q| :: !IsSpace(q[k])
  }

  /** An occurrence inside the slice `s[a..b]` is an occurrence in `s`, and
      back. */
  lemma OccursInSlice(s: string, q: string, a: int, b: int, i: int)
    requires 0 <= a <= b <= |s| && 0 <= i && a + i + |q| <= b
    ensures OccursAt(s[a..b], q, i) <==> OccursAt(s, q, a + i)
  {
    var u := s[a..b][i..i + |q|];
    var v := s[a + i..a + i + |q|];
    forall k | 0 <= k < |q| ensures u[k] == v[k] {
      assert s[a..b][i + k] == s[a + i + k];
    }
    assert u == v;
  }

  /** An occurrence of a word that neither starts nor ends with white space
      lies between the leading and the trailing white space. */
  lemma TrimBoundsOccurrence(s: string, q: string, i: int)
    requires |q| > 0 && !IsSpace(q[0]) && !IsSpace(q[|q| - 1]) && OccursAt(s, q, i)
    ensures TrimStartIndex(s) <= i && i + |q| <= TrimEndIndex(s)
  {
    assert s[i] == q[0] by { assert s[i..i + |q|][0] == s[i]; }
    assert s[i + |q| - 1] == q[|q| - 1] by { assert s[i..i + |q|][|q| - 1] == s[i + |q| - 1]; }
  }

  lemma TrimKeepsOccurrence(s: string, q: string)
    requires |q| > 0 && !IsSpace(q[0]) && !IsSpace(q[|q| - 1]) && Occurs(s, q)
    ensures Occurs(Trim(s), q)
  {
    var a := TrimStartIndex(s);
    var i :| 0 <= i <= |s| - |q| && OccursAt(s, q, i);
    TrimBoundsOccurrence(s, q, i);
    OccursInSlice(s, q, a, TrimEndIndex(s), i - a);
    assert OccursAt(Trim(s), q, i - a);
  }

  lemma TrimmedOccurrence(s: string, q: string)
    requires Occurs(Trim(s), q)
    ensures Occurs(s, q)
  {
    var a := TrimStartIndex(s);
    var j :| 0 <= j <= |Trim(s)| - |q| && OccursAt(Trim(s), q, j);
    OccursInSlice(s, q, a, TrimEndIndex(s), j);
    assert OccursAt(s, q, a + j);
  }

  /** Trimming keeps every occurrence of a word without white space: the
      white space it removes cannot overlap one. */
  lemma TrimKeepsWord(s: string, q: string)
    requires |q| > 0 && NoSpace(q)
    ensures Contains(s, q) <==> Contains(Trim(s), q)
  {
    ContainsIff(s, q);
    ContainsIff(Trim(s), q);
    if Occurs(s, q) {
      assert !IsSpace(q[0]) && !IsSpace(q[|q| - 1]);
      TrimKeepsOccurrence(s, q);
    }
    if Occurs(Trim(s), q) {
      TrimmedOccurrence(s, q);
    }
  }

  // ---------------------------------------------------------------------------
  // Runs of characters and decimal numerals
  // ---------------------------------------------------------------------------

  /** The end of the longest run of characters satisfying `p` from index `i`
      (a greedy regular-expression repetition). */
  function RunEnd(s: string, i: nat, p: char -> bool): (r: nat)
    requires i <= |s|
    decreases |s| - i
    ensures i <= r <= |s|
    ensures forall k | i <= k < r :: p(s[k])
    ensures r == |s| || !p(s[r])
  {
    if i < |s| && p(s[i]) then RunEnd(s, i + 1, p) else i
  }

  /** `parseInt` of a text made only of decimal digits. */
  function DecimalValue(s: string): (n: nat)
    requires forall k | 0 <= k < |s| :: IsDigit(s[k])
    ensures |s| == 1 ==> n == s[0] as int - '0' as int
  {
    if |s| == 0 then 0
    else
      assert IsDigit(s[|s| - 1]);
      DecimalValue(s[..|s| - 1]) * 10 + (s[|s| - 1] as int - '0' as int)
  }
}

=== FILE: types.dfy ===
/** The shared vocabulary of the generator (lib/types.ts): the closed string
    unions become enumerations with their textual names, and the interfaces
    become immutable records. Optional fields are `Option`s. */
module Types {
  import opened Wrappers

  datatype Framework = React | Vue | Svelte

  datatype Styling = Tailwind | Css | StyledComponents | Emotion

  /** The ten component kinds a description can be classified as. */
  datatype Kind =
    | Button | Input | Card | Modal | Alert
    | PricingTable | ContactForm | Navigation | Hero | DataTable

  datatype Category = Core | Composite | Layout

  datatype Complexity = Simple | Medium | Complex

  function FrameworkName(f: Framework): string {
    match f
    case React => "react"
    case Vue => "vue"
    case Svelte => "svelte"
  }

  function KindName(k: Kind): string {
    match k
    case Button => "button"
    case Input => "input"
    case Card => "card"
    case Modal => "modal"
    case Alert => "alert"
    case PricingTable => "pricing-table"
    case ContactForm => "contact-form"
    case Navigation => "navigation"
    case Hero => "hero"
    case DataTable => "data-table"
  }

  /** Distinct kinds have distinct names, so the textual form identifies the
      kind (the source compares kinds as strings). */
  lemma KindNameInjective(a: Kind, b: Kind)
    requires KindName(a) == KindName(b)
    ensures a == b
  {
  }

  // ---------------------------------------------------------------------------
  // Requests
  // ---------------------------------------------------------------------------

  datatype ColorScheme = ColorScheme(
    primary: string, secondary: string, accent: string, background: string, text: string)

  datatype FontSizes = FontSizes(sm: string, md: string, lg: string, xl: string)

  datatype FontWeights = FontWeights(normal: string, medium: string, bold: string)

  datatype Typography = Typography(fontFamily: string, fontSize: FontSizes, fontWeight: FontWeights)

  datatype ProjectConstraints = ProjectConstraints(
    projectPath: Option<string>,
    colorScheme: Option<ColorScheme>,
    typography: Option<Typography>,
    existingComponents: Option<seq<string>>)

  datatype ComponentRequest = ComponentRequest(
    description: string,
    framework: Framework,
    styling: Styling,
    features: Option<seq<string>>,
    constraints: Option<ProjectConstraints>)

  // ---------------------------------------------------------------------------
  // Catalog entries
  // ---------------------------------------------------------------------------

  /** The `default` of a prop: the catalog only uses text and booleans. */
  datatype PropValue = Text(text: string) | Flag(flag: bool)

  datatype PropSpec = PropSpec(
    typeName: string,
    required: Option<bool>,
    defaultValue: Option<PropValue>,
    description: Option<string>)

  /** A prop declaration; a component's props keep their declaration order. */
  datatype Prop = Prop(name: string, spec: PropSpec)

  datatype VariantDefinition = VariantDefinition(
    name: string, description: string, features: seq<string>, complexity: Complexity)

  datatype ComponentDefinition = ComponentDefinition(
    name: string,
    category: Category,
    description: string,
    keywords: seq<string>,
    frameworks: seq<Framework>,
    styling: seq<Styling>,
    variants: seq<VariantDefinition>,
    props: seq<Prop>,
    dependencies: seq<string>,
    imports: seq<string>)

  // ---------------------------------------------------------------------------
  // Results
  // ---------------------------------------------------------------------------

  /** What the parser reads out of a description. */
  datatype ParsedIntent = ParsedIntent(
    componentType: Kind,
    framework: Framework,
    styling: Styling,
    features: seq<string>,
    constraints: seq<string>,
    confidence: real)

  datatype ComponentVariant = ComponentVariant(
    name: string,
    description: string,
    code: string,
    styles: Option<string>,
    dependencies: seq<string>,
    props: seq<Prop>)

  /** Response metadata; the generation time stamp is not modelled. */
  datatype ComponentMetadata = ComponentMetadata(
    componentType: Kind,
    framework: Framework,
    styling: Styling,
    features: seq<string>,
    accessibility: bool,
    responsive: bool)

  datatype ComponentResponse = ComponentResponse(
    variants: seq<ComponentVariant>,
    metadata: ComponentMetadata,
    integrationInstructions: seq<string>)
}

=== FILE: wrappers.dfy ===
/** Failure-compatible carriers: `Option` stands for the source's `T | null`
    and `T | undefined` results, `Result` for an operation that either returns
    a value or throws an `Error` carrying a message. */
module Wrappers {

  datatype Option<+T> = None | Some(value: T) {

    /** The value, or `default` when absent (the source's `x || default`). */
    function GetOr(default: T): T {
      match this
      case Some(v) => v
      case None => default
    }
  }

  datatype Result<+R> = Success(value: R) | Failure(error: string) {

    predicate IsFailure() {
      Failure?
    }

    function PropagateFailure<U>(): Result<U>
      requires Failure?
    {
      Failure(error)
    }

    function Extract(): R
      requires Success?
    {
      value
    }
  }
}
